=== FILE: README.md ===
# acalib index, clump and indexing core in Dafny

This project models three pieces of the acalib radio-astronomy library:

- **Index utilities** (`acalib/core/axes.py`, module `Axes`):
  - `fix_limits` clamps an index vector into an array's shape.
  - `slab` builds one `[start, stop)` range per axis from optional bounds.
  - `matching_slabs` pairs a data slab with a slab into a second "flux" array.
  - `index_mesh` and `index_features` enumerate the cells of a slab in row-major order.
- **Clump bookkeeping of FellWalker** (`acalib/algorithms/fellwalker.py`, module `Fellwalker`):
  - `_struct_builder` groups the cells of a clump-assignment array (CAA) by label and finds each clump's peak.
  - `_fellwalker` squeezes leading singleton axes before running the external clump finder.
  - It then remaps the minimum label of the clump finder's output to 0.
- **Indexing result assembly** (`acalib/algorithms/indexing.py`, module `Indexing`):
  - `default_params` fills configuration defaults.
  - `run` loops over spectral slices and accumulates tables and images into a container.

Modelling choices:

- Arrays are a shape plus their cells in row-major order (`Fellwalker.Grid`).
- numpy index vectors that the code updates in place are `array<int>`.
- Slabs are sequences of `Axes.Range`.
- The meshes are sequences of rows.
- Float data values are `Fellwalker.Value`: NaN, -inf, +inf, or a finite value, compared with Python's `>`.
- Each state-changing routine is an imperative method. Its `ensures` ties the result to a specification function, and lemmas state the properties of that function.
- Library calls are parameters. The external clump finder (`pycupid.fellwalker`) is the `clumper` argument. `spectra_sketch`, `vel_stacking`, GMS, `measure_shape` and the WCS transforms are the fields of `Indexing.Externals`.

Behaviour of the code that the model keeps:

- `fix_limits` keeps a component equal to `shape[i]`, because its test is `>` (acalib/core/axes.py:9). The clamp is into the closed interval `[0, shape[i]]`.
- `slab` does not reorder its bounds (acalib/core/axes.py:23-27). When the clamped lower bound of an axis exceeds the clamped upper bound, `index_mesh` hands `mgrid` a negative axis length, and `mgrid` raises (acalib/core/axes.py:96).
- The loop of `matching_slabs` runs over the data axes but writes into vectors of the flux rank (acalib/core/axes.py:34-40). A data axis beyond the flux rank raises an `IndexError` when its range touches an edge of the data.
- A peak stays `None` only when no member value exceeds -inf, i.e. every member is -inf or NaN (acalib/algorithms/fellwalker.py:34-37).
- A `None` from the clump finder is the only failure `_fellwalker` passes on. An all-background output is remapped like any other (acalib/algorithms/fellwalker.py:57-64).
- A slice with a non-empty table adds its stacked image and all of its segmentation images, of which there may be none (acalib/algorithms/indexing.py:88-91). The image count is 1 + Σ(1 + |labeled_images|) over the kept slices.
- `run` reads `P`, `PRECISION`, `SAMPLES` and `RANDOM_STATE` from the configuration without defaults (acalib/algorithms/indexing.py:69, 73). They come from the caller's `params` (acalib/algorithms/indexing.py:13-23); `default_params` adds any that are missing (acalib/algorithms/indexing.py:32-40).

## Model

| member | source | states |
|---|---|---|
| Axes.Clamp | acalib/core/axes.py:8-13 | every component ends in [0, shape[i]]; in-range components (including shape[i] itself) are kept, negative ones become 0, larger ones become shape[i] |
| Axes.ClampIdempotent | acalib/core/axes.py:3-14 | clamping a clamped vector changes nothing |
| Axes.ClampExample | acalib/core/axes.py:8-13 | shape (10, 10) and vector (-3, 15) give (0, 10) |
| Axes.FixLimits | acalib/core/axes.py:3-14 | the masked updates return a fresh array equal to the clamp of the input; the caller's vector is untouched |
| Axes.MaskAssign | acalib/core/axes.py:11-13 | a masked assignment sets exactly the masked components and leaves the others |
| Axes.ClampByMasks | acalib/core/axes.py:8-13 | zeroing the negative components and lowering those above the shape is exactly the clamp |
| Axes.SlabOf | acalib/core/axes.py:17-28 | one range per axis, each start and stop inside [0, shape[i]] |
| Axes.SlabOfDefaults | acalib/core/axes.py:19-22 | with neither bound the slab is [0, shape[i]) on every axis |
| Axes.SlabOfKeepsOrder | acalib/core/axes.py:23-27 | bounds given in the wrong order stay in that order (start > stop) |
| Axes.Slab | acalib/core/axes.py:17-28 | absent bounds default to zeros and the shape; the loop returns exactly the slab of the clamped bounds |
| Axes.OrDefault | acalib/core/axes.py:19-22 | an absent bound becomes the default vector, a given one is used as is |
| Axes.Zip | acalib/core/axes.py:25-27 | the loop pairs the fixed bounds axis by axis |
| Axes.SlabOfPairs | acalib/core/axes.py:23-28 | pairing the fixed bounds gives the slab of the bounds |
| Axes.FluxSlab | acalib/core/axes.py:36-41 | interior axes get the whole flux axis; an axis cut only at the lower edge gets [f - stop, f), one cut only at the upper edge gets [0, stop - start), both of the data range's extent; axes beyond the data rank are whole |
| Axes.FluxBounds | acalib/core/axes.py:34-40 | the loop fails exactly when a data axis beyond the flux rank touches a data edge; otherwise it leaves `flow` and `fup` as the flux bounds of the data axes shared with the flux array |
| Axes.MatchingSlabs | acalib/core/axes.py:31-42 | `None` (the `IndexError`) exactly on an overrun; otherwise the data slab and the flux slab of the bounds computed from the shared axes |
| Axes.NoOverrunWithinFluxRank | acalib/core/axes.py:36-40 | a data array of no higher rank than the flux array never overruns, and all its axes are shared |
| Axes.OverrunWithoutLower | acalib/core/axes.py:19-38 | without a lower bound, a data array of higher rank than the flux array always overruns |
| Axes.MatchingSlabsOverhang | acalib/core/axes.py:37-41 | a window of the flux size overhanging both ends of a data axis gives a flux range of a different extent from the data range |
| Axes.MatchingSlabsCounterexample | acalib/core/axes.py:37-41 | data axis 3, flux 5, window -1..4: data slab [0, 3) but flux slab [2, 3) |
| Axes.AlignedFluxSlab | acalib/core/axes.py:31-42 | the window-aligned flux slab has the data slab's extent on every axis |
| Axes.AlignedFluxSlabMatches | acalib/core/axes.py:31-42 | for an overlapping window of the flux size, the aligned slab lies inside the flux array, matches the data extents, and equals the code's slab wherever the window is not overhung at both ends |
| Axes.Cells | acalib/core/axes.py:96 | the row-major cell list of a slab has the product of the extents as its length |
| Axes.CellsAt | acalib/core/axes.py:96 | cell k of a slab is the slab start plus the multi-index of k (numpy `unravel_index`) |
| Axes.CellsInSlab | acalib/core/axes.py:96 | every listed cell has one index per axis, inside that axis's range |
| Axes.UnravelBounds | acalib/core/axes.py:96 | every component of a multi-index is below its axis length |
| Axes.UnravelRavel | acalib/core/axes.py:96 | unravelling a raveled in-box multi-index gives it back |
| Axes.CellsRavel | acalib/core/axes.py:96 | every in-box coordinate is the cell at its raveled position |
| Axes.CellsSorted | acalib/core/axes.py:96 | row-major order is strictly increasing tuple order |
| Axes.Mgrid | acalib/core/axes.py:96 | one row per axis, each as long as the slab has cells |
| Axes.MgridCells | acalib/core/axes.py:96 | row i, column k of the mesh is the axis-i index of cell k |
| Axes.IndexMesh | acalib/core/axes.py:89-97 | `None` (the `mgrid` error) exactly when some clamped range has start > stop; otherwise row i column k is the axis-i index of the k-th row-major cell of the slab |
| Axes.OneBoundOrdered | acalib/core/axes.py:17-28 | with the lower or the upper bound left to its default, every clamped range runs forwards, so `index_mesh` cannot fail |
| Axes.IndexFeatures | acalib/core/axes.py:100-107 | fails exactly when `index_mesh` does; otherwise dim rows with one column per cell, row dim-1-i column k the axis-i index of cell k |
| Fellwalker.Raster | acalib/algorithms/fellwalker.py:16-30 | the nested loops visit Π shape coordinates |
| Fellwalker.RasterInBox | acalib/algorithms/fellwalker.py:16-30 | every visited coordinate is inside the array |
| Fellwalker.GtTotal | acalib/algorithms/fellwalker.py:37 | on non-NaN values `>` is a strict total order |
| Fellwalker.MembersIn | acalib/algorithms/fellwalker.py:15-30 | a coordinate is among a label's members iff it is visited with that label |
| Fellwalker.GroupMembers | acalib/algorithms/fellwalker.py:15-30 | each dictionary list is exactly its label's members, in visiting order; labels without members have no key |
| Fellwalker.GroupKeys | acalib/algorithms/fellwalker.py:18-21 | the keys are exactly the labels present, background 0 included |
| Fellwalker.GroupPartition | acalib/algorithms/fellwalker.py:15-30 | every cell lies in exactly one list, the one keyed by its own label |
| Fellwalker.TotalLenRemove | acalib/algorithms/fellwalker.py:15-30 | the total list length splits off any one key |
| Fellwalker.TotalLenUpdate | acalib/algorithms/fellwalker.py:18-21 | replacing or adding one list changes the total by the length difference |
| Fellwalker.GroupTotal | acalib/algorithms/fellwalker.py:15-30 | the lists together are as long as the number of cells |
| Fellwalker.MembersSorted | acalib/algorithms/fellwalker.py:16-30 | a label's members of a strictly increasing visit are strictly increasing |
| Fellwalker.GroupSorted | acalib/algorithms/fellwalker.py:16-30 | each list is in strictly increasing row-major order |
| Fellwalker.GroupInBox | acalib/algorithms/fellwalker.py:15-30 | every listed coordinate is a cell of the array |
| Fellwalker.GroupStep | acalib/algorithms/fellwalker.py:18-21 | one more visit appends to the label's list or starts it |
| Fellwalker.PeakIsFirstMaximum | acalib/algorithms/fellwalker.py:36-39 | the peak value is at least every non-NaN member value and differs from every earlier one |
| Fellwalker.PeakUnique | acalib/algorithms/fellwalker.py:36-39 | at most one position is the peak |
| Fellwalker.FinitePeak | acalib/algorithms/fellwalker.py:33-39 | with finite data a non-empty list always has a peak |
| Fellwalker.PeakStepNone | acalib/algorithms/fellwalker.py:36-39 | while no peak is recorded, the next value becomes the peak iff it exceeds -inf |
| Fellwalker.PeakStepSome | acalib/algorithms/fellwalker.py:36-39 | once a peak is recorded, the next value takes over iff it is strictly greater, so ties keep the earlier peak |
| Fellwalker.FindPeak | acalib/algorithms/fellwalker.py:33-39 | the running maximum from -inf yields `None` iff no value exceeds -inf, otherwise the first maximal member |
| Fellwalker.Ravel2 | acalib/algorithms/fellwalker.py:16-18 | (i, j) is cell i·shape[1] + j |
| Fellwalker.Ravel3 | acalib/algorithms/fellwalker.py:24-27 | (i, j, k) is cell i·shape[1]·shape[2] + j·shape[2] + k |
| Fellwalker.VisitCell | acalib/algorithms/fellwalker.py:18 | the visited coordinate is the next row-major coordinate and `caa[i, j]` reads its label |
| Fellwalker.Visit | acalib/algorithms/fellwalker.py:18-21 | appending the visited cell to its label's list extends the grouping by exactly that cell |
| Fellwalker.GroupRank2 | acalib/algorithms/fellwalker.py:15-21 | the double loop builds the label dictionary of the row-major cells |
| Fellwalker.GroupRow | acalib/algorithms/fellwalker.py:16-21 | one pass of the inner loop groups the cells of one more row |
| Fellwalker.GroupRank3 | acalib/algorithms/fellwalker.py:23-30 | the triple loop builds the label dictionary of the row-major cells |
| Fellwalker.GroupPlane | acalib/algorithms/fellwalker.py:24-30 | one pass of the middle loop groups the cells of one more plane |
| Fellwalker.GroupLine | acalib/algorithms/fellwalker.py:25-30 | one pass of the innermost loop groups the cells of one more line |
| Fellwalker.Peaks | acalib/algorithms/fellwalker.py:31-39 | one peak entry per label, each the first maximal member or `None` |
| Fellwalker.StructBuilder | acalib/algorithms/fellwalker.py:10-41 | rank 2 or 3: the label dictionary of all cells and the peaks; any other rank: both maps empty |
| Fellwalker.StructBuilderClumps | acalib/algorithms/fellwalker.py:15-30 | keys are the labels present, total length is the cell count, lists are sorted, every cell is in exactly its own label's list |
| Fellwalker.RasterTwoByTwo | acalib/algorithms/fellwalker.py:16-17 | a 2×2 array is visited (0,0), (0,1), (1,0), (1,1) |
| Fellwalker.GroupTwoByTwo | acalib/algorithms/fellwalker.py:18-21 | labels 1, 1, 2, 2 give {1: [(0,0), (0,1)], 2: [(1,0), (1,1)]} |
| Fellwalker.StructBuilderExample | acalib/algorithms/fellwalker.py:10-41 | labels [[1,1],[2,2]] over data [[1,3],[5,2]] give the lists [(0,0),(0,1)] and [(1,0),(1,1)] with peaks (0,1) and (1,0) |
| Fellwalker.ExamplePeak | acalib/algorithms/fellwalker.py:33-39 | in each row of that example the peak is the larger value: 3 after 1, 5 before 2 |
| Fellwalker.DropFirst | acalib/algorithms/fellwalker.py:48 | indexing a leading singleton axis with 0 keeps the cells and drops one axis |
| Fellwalker.SqueezeAsWritten | acalib/algorithms/fellwalker.py:46-53 | rank 3 with shape[0] = 1 becomes rank 2; rank 4 with shape[0] = 1 becomes rank 3 even when shape[1] = 1; otherwise unchanged |
| Fellwalker.SqueezeAsWrittenKeepsSingleton | acalib/algorithms/fellwalker.py:47-50 | a (1, 1, 5, 5) cube reaches the clumper as (1, 5, 5); the intended squeeze gives (5, 5) |
| Fellwalker.Squeeze | acalib/algorithms/fellwalker.py:46-53 | leading singleton axes are dropped down to rank 2 or 3; cells are unchanged |
| Fellwalker.MinOf | acalib/algorithms/fellwalker.py:58 | `ret.min()` is an element of the array and no larger than any element |
| Fellwalker.Remapped | acalib/algorithms/fellwalker.py:58 | the mask assignment keeps the array length |
| Fellwalker.RemappedCells | acalib/algorithms/fellwalker.py:58 | a cell becomes 0 iff it was 0 or the minimum; every other cell keeps its label; a non-zero minimum disappears |
| Fellwalker.RemappedIdempotent | acalib/algorithms/fellwalker.py:58 | with a background below non-negative clump labels the result is non-negative with minimum 0 and a second remap changes nothing |
| Fellwalker.RemapMinToZero | acalib/algorithms/fellwalker.py:58 | the in-place update turns the array into its remapped version |
| Fellwalker.FellwalkerCaa | acalib/algorithms/fellwalker.py:44-64 | `None` from the clumper gives `None`; otherwise a fresh array holding the remapped clumper output on the squeezed cube |
| Indexing.WithDefaults | acalib/algorithms/indexing.py:32-40 | the four default keys are present, given entries are unchanged, missing ones take P=0.05, PRECISION=0.02, RANDOM_STATE=None, SAMPLES=1000, and no other key is added |
| Indexing.Fill | acalib/algorithms/indexing.py:33-34 | one `if key not in config` assignment adds the key with its default only when it is missing |
| Indexing.WithDefaultsStepwise | acalib/algorithms/indexing.py:32-40 | the four assignments in sequence produce exactly the defaults-filled configuration |
| Indexing.FillLater | acalib/algorithms/indexing.py:32-40 | filling one key after the others is merging one more default |
| Indexing.WithDefaultsIdempotent | acalib/algorithms/indexing.py:32-40 | filling the defaults twice is filling them once |
| Indexing.WithDefaultsEmpty | acalib/algorithms/indexing.py:32-40 | an empty configuration becomes exactly the defaults |
| Indexing.Indexing.constructor | acalib/algorithms/indexing.py:13-14 | the configuration is the caller's `params` dictionary, stored as given |
| Indexing.Indexing.DefaultParams | acalib/algorithms/indexing.py:32-40 | the configuration becomes its defaults-filled version |
| Indexing.DefaultsSuffice | acalib/algorithms/indexing.py:32-40 | after `default_params` the keys P, PRECISION, SAMPLES and RANDOM_STATE that `run` reads are all present, whatever the configuration held |
| Indexing.WcsOf | acalib/algorithms/indexing.py:57-65 | a WCS is used only for NDData/NDDataRef input with a truthy WCS |
| Indexing.FreqBounds | acalib/algorithms/indexing.py:80-85 | without a WCS both frequency bounds are `None`; with one both are present |
| Indexing.SliceStep | acalib/algorithms/indexing.py:77-87 | the loop body computes exactly the step of its slice, with frequency bounds only when there is a WCS |
| Indexing.Kept | acalib/algorithms/indexing.py:88-91 | the kept slices are no more than the slices |
| Indexing.ArraysAppend | acalib/algorithms/indexing.py:90-91 | appending images appends their entries |
| Indexing.KeptSnoc | acalib/algorithms/indexing.py:88-91 | a slice is appended to the kept list iff its table is non-empty |
| Indexing.KeptAppend | acalib/algorithms/indexing.py:88-91 | a kept slice appends its table, then its stacked image, then its segmentation images |
| Indexing.AccumulateStep | acalib/algorithms/indexing.py:76-91 | what slice i adds to the tables and images: everything of a non-empty table, nothing otherwise |
| Indexing.LayoutAppend | acalib/algorithms/indexing.py:90-91 | the layout of two runs of slices is the concatenation of their layouts |
| Indexing.KeptMembers | acalib/algorithms/indexing.py:88-89 | a slice is kept exactly when its table is non-empty |
| Indexing.LayoutLength | acalib/algorithms/indexing.py:90-91 | the layout holds 1 + |labeled_images| images per kept slice |
| Indexing.AllEmpty | acalib/algorithms/indexing.py:88-99 | when every table is empty, no table is kept and the images are the cube alone |
| Indexing.AssembledLength | acalib/algorithms/indexing.py:88-98 | the final image list has 1 + Σ(1 + |labeled_images|) entries |
| Indexing.AssembledEntries | acalib/algorithms/indexing.py:93-98 | entry 0 is the input cube and is never rewrapped; entry i + 1 is layout image i, wrapped exactly when there is a WCS |
| Indexing.Accumulate | acalib/algorithms/indexing.py:76-91 | the slice loop leaves the tables of the kept slices and each kept slice's stacked image followed by its segmentation images |
| Indexing.Append | acalib/algorithms/indexing.py:88-91 | the three appends of a kept slice, leaving `primary` alone |
| Indexing.RewrapImages | acalib/algorithms/indexing.py:93-96 | every accumulated image is wrapped with the reduced WCS; tables are unchanged |
| Indexing.Indexing.Run | acalib/algorithms/indexing.py:43-100 | `None` (the `KeyError`) exactly when one of the four keys it reads is missing; otherwise a fresh container whose tables are those of the kept slices in order, whose images are the cube followed by the (possibly rewrapped) layout, and whose primary is the input cube |

## Left out

- The WCS-based functions of `acalib/core/axes.py`: `spectral_velocities`, `axes_ranges`, `world_features`, `fov_to_index`. They rest on astropy's floating-point pixel/world transforms. The final clamp of `fov_to_index` is `fix_limits`, which is modelled.
- The commented-out code at the end of `acalib/core/axes.py`.
- The `support_nddata` decorator is treated as the identity.
- Axes.FixLimits: the tuple/list-to-array conversion and the `astype(int)` truncation of float vectors are not modelled. Index vectors are integer arrays of the array's rank; numpy broadcasting of a shorter vector is not modelled.
- Axes.IndexMesh: arrays of rank 0 are not modelled. `index_features` divides by `ndim`. `np.mgrid` returns an array of shape (dim, e0, ..., e(n-1)); the model returns the dim rows already raveled in row-major order, i.e. `msh[i].ravel()`, not the n-dimensional grid.
- Axes.IndexFeatures: arrays of rank 0 are not modelled, for the same reason. `np.empty` makes the result a float64 array; the model returns the same values as integers.
- Fellwalker.StructBuilder: data values are NaN, ±inf or integers; fractional floats are not modelled. The iteration order of the label dictionary is not modelled, since the results are maps.
- Fellwalker.FellwalkerCaa: the returned array's shape, the WCS rewrap into `NDDataRef` (lines 59-60) and the `rms` estimate are not modelled. `pycupid.fellwalker` is the `clumper` parameter.
- Fellwalker.FellwalkerCaa follows the corrected squeeze (see Findings). For a rank-4 cube of shape (1, 1, ...) it therefore hands the clumper a rank-2 cube, where the code hands it a rank-3 one.
- Fellwalker.RemapMinToZero: numpy's `min` raises on an empty array, so an empty clumper output is excluded by a precondition.
- `FellWalker.run` and `FellWalker.default_params` (acalib/algorithms/fellwalker.py:67-105). `run` contains unresolved merge-conflict markers and calls `_struct_builder` with one argument where two are required.
- The `Algorithm` base class and `acalib.Container` are not part of this model. The container is assumed to start with empty lists and no primary image.
- Indexing.Indexing.constructor: the `Algorithm` base-class constructor is not part of this model, so `params=None` is not modelled and no defaults are applied on construction. The documented defaults (acalib/algorithms/indexing.py:16-23) hold only after `DefaultParams`; `Run` on a configuration still missing a key returns `None`, the `KeyError`.
- Indexing.Indexing.Run: the `spectra` result of `spectra_sketch` is unused by `run` and is not modelled. WCS truthiness is modelled as presence. A subclass of NDData counts as plain input, as with the exact `type(...) is` test.
- `test/synthetic/methanol_cloud.py` generates synthetic cubes from random numbers and is not analysis logic.

## Findings

| source | as written | input that shows it | evidently intended | confidence | as-written member | corrected member |
|---|---|---|---|---|---|---|
| acalib/algorithms/fellwalker.py:49-50 | `cube = data[0,:,:]` on a rank-4 array drops only the first axis, so the `shape[1] == 1` branch changes nothing | a cube of shape (1, 1, 5, 5) reaches the clumper with shape (1, 5, 5) | drop both singleton axes and clump a (5, 5) image | medium, not executed | Fellwalker.SqueezeAsWrittenKeepsSingleton | Fellwalker.Squeeze |
| acalib/core/axes.py:37-40 | `flow` and `fup` are set independently, so a window overhanging both ends of a data axis gets a flux range of the wrong extent | data axis 3, flux axis 5, lower -1, upper 4: data slab [0, 3), flux slab [2, 3) | flux slab [1, 4), aligned with the window and of the data slab's extent | medium, not executed | Axes.MatchingSlabsCounterexample | Axes.AlignedFluxSlabMatches |

=== FILE: axes.dfy ===
/**
 * Integer index logic of acalib's `core/axes.py`: clamping an index vector into
 * an array's shape, slabs (one half-open range per axis), the matching slab into
 * a second ("flux") array, and the row-major index mesh and feature matrix of a
 * slab. Arrays are described by their shape; numpy index vectors are `array<int>`.
 */
module Axes {
  import opened Wrappers

  /** The extent of each axis of an n-dimensional array. */
  type Shape = seq<nat>

  /** A Python `slice(start, stop)`: the half-open range [start, stop). */
  datatype Range = Range(start: int, stop: int)

  /** Number of cells of an array of the given shape. */
  function Prod(s: seq<nat>): nat
  {
    if |s| == 0 then 1 else s[0] * Prod(s[1..])
  }

  function Max(a: int, b: int): int { if a < b then b else a }

  function Min(a: int, b: int): int { if a < b then a else b }

  function Zeros(n: nat): (z: seq<int>)
    ensures |z| == n && forall i :: 0 <= i < n ==> z[i] == 0
  {
    seq(n, _ => 0)
  }

  /** An optional index vector, or `dflt` when it is absent. */
  function BoundOr(bound: Option<array<int>>, dflt: seq<int>): seq<int>
    reads if bound.Some? then {bound.value} else {}
  {
    if bound.Some? then bound.value[..] else dflt
  }

  // ---------------------------------------------------------------------------
  // fix_limits
  // ---------------------------------------------------------------------------

  /**
   * Componentwise clamp of `v` into the CLOSED box [0, shape[i]]: a component
   * equal to shape[i] is kept, since slice stops may equal the axis length.
   */
  function Clamp(shape: Shape, v: seq<int>): (r: seq<int>)
    requires |v| == |shape|
    ensures |r| == |v|
    ensures forall i :: 0 <= i < |v| ==> 0 <= r[i] <= shape[i]
    ensures forall i :: 0 <= i < |v| && 0 <= v[i] <= shape[i] ==> r[i] == v[i]
    ensures forall i :: 0 <= i < |v| && v[i] < 0 ==> r[i] == 0
    ensures forall i :: 0 <= i < |v| && shape[i] < v[i] ==> r[i] == shape[i]
  {
    seq(|v|, i requires 0 <= i < |v| => Min(Max(v[i], 0), shape[i]))
  }

  lemma ClampIdempotent(shape: Shape, v: seq<int>)
    requires |v| == |shape|
    ensures Clamp(shape, Clamp(shape, v)) == Clamp(shape, v)
  {
  }

  /** Shape (10, 10) and vector (-3, 15) give (0, 10). */
  lemma ClampExample()
    ensures Clamp([10, 10], [-3, 15]) == [0, 10]
  {
  }

  /** numpy's `vect.any()`: some component is non-zero. */
  predicate Any(v: seq<int>)
  {
    exists i :: 0 <= i < |v| && v[i] != 0
  }

  /**
   * `fix_limits`: copies the vector (`astype`), then zeroes the negative
   * components and lowers those above the shape to the shape, through masks.
   * The caller's vector is not modified and the result is a new array.
   */
  method FixLimits(shape: Shape, vect: array<int>) returns (r: array<int>)
    requires vect.Length == |shape|
    ensures fresh(r)
    ensures r[..] == Clamp(shape, vect[..])
  {
    var n := vect.Length;
    r := new int[n](i reads vect requires 0 <= i < n => vect[i]);
    ghost var v := r[..];
    var low := seq(n, i requires 0 <= i < n reads r => r[i] < 0);
    var up := seq(n, i requires 0 <= i < n reads r => r[i] > shape[i]);
    if Any(r[..]) {
      MaskAssign(r, low, Zeros(n));
    } else {
      assert forall j :: 0 <= j < n ==> !low[j] by {
        forall j | 0 <= j < n ensures !low[j] { assert v[j] == 0; }
      }
    }
    ghost var w := r[..];
    assert forall j :: 0 <= j < n ==> w[j] == if low[j] then 0 else v[j];
    if Any(r[..]) {
      MaskAssign(r, up, shape);
    } else {
      assert forall j :: 0 <= j < n ==> !up[j] by {
        forall j | 0 <= j < n ensures !up[j] { assert w[j] == 0; }
      }
    }
    forall j | 0 <= j < n
      ensures r[j] == if v[j] > shape[j] then shape[j] else if v[j] < 0 then 0 else v[j]
    {
    }
    ClampByMasks(shape, v, r[..]);
  }

  /** The two masked assignments, zero where negative and the shape where above it, are the clamp. */
  lemma ClampByMasks(shape: Shape, v: seq<int>, r: seq<int>)
    requires |v| == |shape| && |r| == |v|
    requires forall j :: 0 <= j < |v| ==> r[j] == if v[j] > shape[j] then shape[j] else if v[j] < 0 then 0 else v[j]
    ensures r == Clamp(shape, v)
  {
  }

  /** numpy's masked assignment `r[mask] = vals[mask]`. */
  method MaskAssign(r: array<int>, mask: seq<bool>, vals: seq<int>)
    requires |mask| == r.Length && |vals| == r.Length
    modifies r
    ensures forall j :: 0 <= j < r.Length ==> r[j] == if mask[j] then vals[j] else old(r[j])
  {
    for i := 0 to r.Length
      invariant forall j :: 0 <= j < i ==> r[j] == if mask[j] then vals[j] else old(r[j])
      invariant forall j :: i <= j < r.Length ==> r[j] == old(r[j])
    {
      if mask[i] {
        r[i] := vals[i];
      }
    }
  }

  // ---------------------------------------------------------------------------
  // slab
  // ---------------------------------------------------------------------------

  /** The slab from `lower` to `upper`, both clamped into `shape`: one range per axis. */
  function SlabOf(shape: Shape, lower: seq<int>, upper: seq<int>): (s: seq<Range>)
    requires |lower| == |shape| && |upper| == |shape|
    ensures |s| == |shape|
    ensures forall i :: 0 <= i < |shape| ==> 0 <= s[i].start <= shape[i] && 0 <= s[i].stop <= shape[i]
  {
    var lo := Clamp(shape, lower);
    var up := Clamp(shape, upper);
    seq(|shape|, i requires 0 <= i < |shape| => Range(lo[i], up[i]))
  }

  /** The slab of the whole array: [0, shape[i]) on every axis. */
  function Full(shape: Shape): (s: seq<Range>)
    ensures |s| == |shape|
  {
    seq(|shape|, i requires 0 <= i < |shape| => Range(0, shape[i]))
  }

  /** With neither bound given, the slab is the whole array. */
  lemma SlabOfDefaults(shape: Shape)
    ensures SlabOf(shape, Zeros(|shape|), shape) == Full(shape)
  {
  }

  /** Bounds given in the wrong order are clamped but not swapped. */
  lemma SlabOfKeepsOrder(shape: Shape, lower: seq<int>, upper: seq<int>, i: nat)
    requires |lower| == |shape| && |upper| == |shape| && i < |shape|
    requires 0 <= upper[i] < lower[i] <= shape[i]
    ensures SlabOf(shape, lower, upper)[i] == Range(lower[i], upper[i])
    ensures SlabOf(shape, lower, upper)[i].start > SlabOf(shape, lower, upper)[i].stop
  {
  }

  /** `slab`: absent bounds default to zeros and to the shape; both are fixed, then paired per axis. */
  method Slab(shape: Shape, lower: Option<array<int>>, upper: Option<array<int>>) returns (s: seq<Range>)
    requires lower.Some? ==> lower.value.Length == |shape|
    requires upper.Some? ==> upper.value.Length == |shape|
    ensures s == SlabOf(shape, BoundOr(lower, Zeros(|shape|)), BoundOr(upper, shape))
  {
    var lo := OrDefault(lower, Zeros(|shape|));
    var up := OrDefault(upper, shape);
    var flo := FixLimits(shape, lo);
    var fup := FixLimits(shape, up);
    s := Zip(flo, fup);
    SlabOfPairs(shape, lo[..], up[..], flo[..], fup[..], s);
  }

  /** The given bound, or a new array holding `dflt`. */
  method OrDefault(bound: Option<array<int>>, dflt: seq<int>) returns (a: array<int>)
    requires bound.Some? ==> bound.value.Length == |dflt|
    ensures a[..] == BoundOr(bound, dflt)
  {
    if bound.None? {
      a := new int[|dflt|](i requires 0 <= i < |dflt| => dflt[i]);
    } else {
      a := bound.value;
    }
  }

  /** One range per axis from the fixed bounds. */
  method Zip(lo: array<int>, up: array<int>) returns (s: seq<Range>)
    requires lo.Length == up.Length
    ensures |s| == lo.Length && forall j :: 0 <= j < lo.Length ==> s[j] == Range(lo[j], up[j])
  {
    s := [];
    for i := 0 to lo.Length
      invariant |s| == i
      invariant forall j :: 0 <= j < i ==> s[j] == Range(lo[j], up[j])
    {
      s := s + [Range(lo[i], up[i])];
    }
  }

  lemma SlabOfPairs(shape: Shape, lower: seq<int>, upper: seq<int>, lo: seq<int>, up: seq<int>, s: seq<Range>)
    requires |lower| == |shape| && |upper| == |shape|
    requires lo == Clamp(shape, lower) && up == Clamp(shape, upper)
    requires |s| == |shape| && forall j :: 0 <= j < |shape| ==> s[j] == Range(lo[j], up[j])
    ensures s == SlabOf(shape, lower, upper)
  {
  }

  // ---------------------------------------------------------------------------
  // matching_slabs
  // ---------------------------------------------------------------------------

  /** Number of indices in a range; a range whose stop is not after its start is empty. */
  function Extent(r: Range): nat
  {
    if r.start < r.stop then r.stop - r.start else 0
  }

  /** `flow` after the loop of `matching_slabs`. */
  function FluxLower(dshape: Shape, fshape: Shape, ds: seq<Range>): (r: seq<int>)
    requires |dshape| <= |fshape| && |ds| == |dshape|
    ensures |r| == |fshape|
  {
    seq(|fshape|, i requires 0 <= i < |fshape| =>
      if i < |dshape| && ds[i].start == 0 then fshape[i] - ds[i].stop else 0)
  }

  /** `fup` after the loop of `matching_slabs`. */
  function FluxUpper(dshape: Shape, fshape: Shape, ds: seq<Range>): (r: seq<int>)
    requires |dshape| <= |fshape| && |ds| == |dshape|
    ensures |r| == |fshape|
  {
    seq(|fshape|, i requires 0 <= i < |fshape| =>
      if i < |dshape| && ds[i].stop == dshape[i] then ds[i].stop - ds[i].start else fshape[i])
  }

  /**
   * The flux slab that `matching_slabs` pairs with the data slab `ds`. An axis
   * strictly inside the data gets the whole flux axis; an axis cut at one edge
   * of the data gets a flux range of the data range's extent, at the matching
   * end of the flux array.
   */
  function FluxSlab(dshape: Shape, fshape: Shape, ds: seq<Range>): (fs: seq<Range>)
    requires |dshape| <= |fshape| && |ds| == |dshape|
    ensures |fs| == |fshape|
    ensures forall i :: 0 <= i < |fshape| ==> 0 <= fs[i].start <= fshape[i] && 0 <= fs[i].stop <= fshape[i]
    ensures forall i :: 0 <= i < |dshape| && 0 < ds[i].start && ds[i].stop < dshape[i] ==>
      fs[i] == Range(0, fshape[i])
    ensures forall i :: 0 <= i < |dshape| && ds[i].start == 0 && 0 <= ds[i].stop < dshape[i] && ds[i].stop <= fshape[i] ==>
      fs[i] == Range(fshape[i] - ds[i].stop, fshape[i]) && Extent(fs[i]) == Extent(ds[i])
    ensures forall i :: 0 <= i < |dshape| && 0 < ds[i].start <= ds[i].stop == dshape[i] && ds[i].stop - ds[i].start <= fshape[i] ==>
      fs[i] == Range(0, ds[i].stop - ds[i].start) && Extent(fs[i]) == Extent(ds[i])
    ensures forall i :: |dshape| <= i < |fshape| ==> fs[i] == Range(0, fshape[i])
  {
    SlabOf(fshape, FluxLower(dshape, fshape, ds), FluxUpper(dshape, fshape, ds))
  }

  /**
   * The loop of `matching_slabs` runs over every data axis but `flow` and
   * `fup` have one entry per flux axis: a data axis beyond the flux rank whose
   * range touches an edge of the data makes it index past their end.
   */
  predicate FluxOverrun(dshape: Shape, fshape: Shape, ds: seq<Range>)
    requires |ds| == |dshape|
  {
    exists i :: |fshape| <= i < |dshape| && (ds[i].start == 0 || ds[i].stop == dshape[i])
  }

  /**
   * The loop of `matching_slabs`: `flow` and `fup` start as zeros and as the
   * flux shape and are overwritten on the axes where the data slab `ds`
   * touches an edge of the data array. `ok` is false when the loop overruns
   * them, which raises an `IndexError`.
   */
  method FluxBounds(dshape: Shape, fshape: Shape, ds: seq<Range>) returns (ok: bool, flow: array<int>, fup: array<int>)
    requires |ds| == |dshape|
    ensures fresh(flow) && fresh(fup)
    ensures ok <==> !FluxOverrun(dshape, fshape, ds)
    ensures var m := Min(|dshape|, |fshape|);
      ok ==> flow[..] == FluxLower(dshape[..m], fshape, ds[..m]) && fup[..] == FluxUpper(dshape[..m], fshape, ds[..m])
  {
    flow := new int[|fshape|](_ => 0);
    fup := new int[|fshape|](i requires 0 <= i < |fshape| => fshape[i]);
    for i := 0 to |dshape|
      invariant flow.Length == |fshape| && fup.Length == |fshape|
      invariant forall j :: |fshape| <= j < i ==> ds[j].start != 0 && ds[j].stop != dshape[j]
      invariant forall j :: 0 <= j < |fshape| ==>
        flow[j] == if j < i && ds[j].start == 0 then fshape[j] - ds[j].stop else 0
      invariant forall j :: 0 <= j < |fshape| ==>
        fup[j] == if j < i && ds[j].stop == dshape[j] then ds[j].stop - ds[j].start else fshape[j]
    {
      if ds[i].start == 0 {
        if i >= |fshape| {
          return false, flow, fup;
        }
        flow[i] := fshape[i] - ds[i].stop;
      }
      if ds[i].stop == dshape[i] {
        if i >= |fshape| {
          return false, flow, fup;
        }
        fup[i] := ds[i].stop - ds[i].start;
      }
    }
    ok := true;
  }

  /**
   * `matching_slabs`: the data slab, then the slab of the flux bounds computed
   * from it; `None` is the `IndexError` of an overrun. Only the data axes
   * shared with the flux array shape the flux slab.
   */
  method MatchingSlabs(dshape: Shape, fshape: Shape, lower: Option<array<int>>, upper: Option<array<int>>)
    returns (r: Option<(seq<Range>, seq<Range>)>)
    requires lower.Some? ==> lower.value.Length == |dshape|
    requires upper.Some? ==> upper.value.Length == |dshape|
    ensures var ds := SlabOf(dshape, BoundOr(lower, Zeros(|dshape|)), BoundOr(upper, dshape));
      r.None? <==> FluxOverrun(dshape, fshape, ds)
    ensures var ds := SlabOf(dshape, BoundOr(lower, Zeros(|dshape|)), BoundOr(upper, dshape));
      var m := Min(|dshape|, |fshape|);
      r.Some? ==> r.value.0 == ds && r.value.1 == FluxSlab(dshape[..m], fshape, ds[..m])
  {
    var ds := Slab(dshape, lower, upper);
    var ok, flow, fup := FluxBounds(dshape, fshape, ds);
    if !ok {
      return None;
    }
    var fs := Slab(fshape, Some(flow), Some(fup));
    r := Some((ds, fs));
  }

  /** A data array of no higher rank than the flux array never overruns. */
  lemma NoOverrunWithinFluxRank(dshape: Shape, fshape: Shape, ds: seq<Range>)
    requires |ds| == |dshape| && |dshape| <= |fshape|
    ensures !FluxOverrun(dshape, fshape, ds)
    ensures dshape[..Min(|dshape|, |fshape|)] == dshape && ds[..Min(|dshape|, |fshape|)] == ds
  {
  }

  /**
   * Without a lower bound every data range starts at 0, so a data array of
   * higher rank than the flux array always overruns.
   */
  lemma OverrunWithoutLower(dshape: Shape, fshape: Shape, upper: seq<int>)
    requires |upper| == |dshape| && |fshape| < |dshape|
    ensures FluxOverrun(dshape, fshape, SlabOf(dshape, Zeros(|dshape|), upper))
  {
    var ds := SlabOf(dshape, Zeros(|dshape|), upper);
    assert ds[|fshape|].start == 0;
  }

  /**
   * When the window [lower, upper) overhangs both ends of a data axis, the
   * flux range has a different extent from the data range: the data range is
   * [0, s) while the flux range is [f - s, s).
   */
  lemma MatchingSlabsOverhang(dshape: Shape, fshape: Shape, lower: seq<int>, upper: seq<int>, i: nat)
    requires |dshape| <= |fshape| && |lower| == |dshape| && |upper| == |dshape| && i < |dshape|
    requires 0 < dshape[i] && upper[i] - lower[i] == fshape[i]
    requires lower[i] <= 0 && dshape[i] <= upper[i] && (lower[i] < 0 || dshape[i] < upper[i])
    ensures var ds := SlabOf(dshape, lower, upper);
      ds[i] == Range(0, dshape[i]) &&
      FluxSlab(dshape, fshape, ds)[i] == Range(fshape[i] - dshape[i], dshape[i]) &&
      Extent(FluxSlab(dshape, fshape, ds)[i]) != Extent(ds[i])
  {
  }

  /** A kernel of 5 placed at -1..3 over an axis of 3: data [0, 3) but flux [2, 3). */
  lemma MatchingSlabsCounterexample()
    ensures SlabOf([3], [-1], [4]) == [Range(0, 3)]
    ensures FluxSlab([3], [5], SlabOf([3], [-1], [4])) == [Range(2, 3)]
  {
  }

  /**
   * The intended flux slab: the data slab expressed in the coordinates of the
   * window [lower, upper), so that flux index 0 lines up with `lower`.
   */
  function AlignedFluxSlab(dshape: Shape, fshape: Shape, lower: seq<int>, ds: seq<Range>): (fs: seq<Range>)
    requires |dshape| <= |fshape| && |lower| == |dshape| && |ds| == |dshape|
    ensures |fs| == |fshape|
    ensures forall i :: 0 <= i < |dshape| ==> Extent(fs[i]) == Extent(ds[i])
  {
    seq(|fshape|, i requires 0 <= i < |fshape| =>
      if i < |dshape| then Range(ds[i].start - lower[i], ds[i].stop - lower[i]) else Range(0, fshape[i]))
  }

  /**
   * For a window of the flux array's size that overlaps the data, the aligned
   * flux slab lies inside the flux array and has the data slab's extent on every
   * axis; it agrees with `matching_slabs` on every axis not overhung at both ends.
   */
  lemma AlignedFluxSlabMatches(dshape: Shape, fshape: Shape, lower: seq<int>, upper: seq<int>)
    requires |dshape| <= |fshape| && |lower| == |dshape| && |upper| == |dshape|
    requires forall i :: 0 <= i < |dshape| ==> upper[i] - lower[i] == fshape[i]
    requires forall i :: 0 <= i < |dshape| ==> lower[i] <= dshape[i] && 0 <= upper[i]
    ensures var ds := SlabOf(dshape, lower, upper);
      var fs := AlignedFluxSlab(dshape, fshape, lower, ds);
      forall i :: 0 <= i < |dshape| ==>
        && 0 <= fs[i].start <= fs[i].stop <= fshape[i]
        && Extent(fs[i]) == Extent(ds[i])
        && (0 < lower[i] || upper[i] < dshape[i] ==> fs[i] == FluxSlab(dshape, fshape, ds)[i])
  {
  }

  // ---------------------------------------------------------------------------
  // Row-major cells of a slab, index_mesh and index_features
  // ---------------------------------------------------------------------------

  /** The extent of every range. */
  function Extents(rs: seq<Range>): (n: seq<nat>)
    ensures |n| == |rs| && forall i :: 0 <= i < |rs| ==> n[i] == Extent(rs[i])
  {
    seq(|rs|, i requires 0 <= i < |rs| => Extent(rs[i]))
  }

  /** `x` prepended to each coordinate of `cs`. */
  function Prepend(x: int, cs: seq<seq<int>>): (r: seq<seq<int>>)
    ensures |r| == |cs| && forall j :: 0 <= j < |cs| ==> r[j] == [x] + cs[j]
  {
    seq(|cs|, j requires 0 <= j < |cs| => [x] + cs[j])
  }

  /** The coordinates `rest` behind each first index a, a+1, ..., b-1 in turn. */
  function Layers(a: int, b: int, rest: seq<seq<int>>): (r: seq<seq<int>>)
    ensures |r| == Extent(Range(a, b)) * |rest|
    decreases b - a
  {
    if a >= b then []
    else
      MulSucc(b - a - 1, |rest|);
      Prepend(a, rest) + Layers(a + 1, b, rest)
  }

  /**
   * Every cell of the slab `rs`, in row-major order (the last axis varies
   * fastest), as its coordinate vector.
   */
  function Cells(rs: seq<Range>): (cs: seq<seq<int>>)
    ensures |cs| == Prod(Extents(rs))
    decreases |rs|
  {
    if |rs| == 0 then [[]]
    else
      assert Extents(rs)[1..] == Extents(rs[1..]);
      Layers(rs[0].start, rs[0].stop, Cells(rs[1..]))
  }

  /** numpy's `unravel_index` in C order: the multi-index of flat position `k`. */
  function Unravel(n: seq<nat>, k: nat): (c: seq<nat>)
    requires k < Prod(n)
    ensures |c| == |n|
  {
    if |n| == 0 then []
    else
      DivBelow(k, Prod(n[1..]), n[0]);
      [k / Prod(n[1..])] + Unravel(n[1..], k % Prod(n[1..]))
  }

  /** numpy's `ravel_multi_index` in C order: the flat position of an in-box multi-index. */
  function Ravel(n: seq<nat>, c: seq<int>): (k: nat)
    requires |c| == |n| && forall i :: 0 <= i < |n| ==> 0 <= c[i] < n[i]
    ensures k < Prod(n)
  {
    if |n| == 0 then 0
    else
      var p := Prod(n[1..]);
      var r := Ravel(n[1..], c[1..]);
      MulAddBelow(c[0], r, p, n[0]);
      c[0] * p + r
  }

  lemma MulSucc(x: int, y: int)
    ensures (x + 1) * y == y + x * y
  {
  }

  lemma MulMono(x: int, y: int, p: int)
    requires x <= y && p >= 0
    ensures x * p <= y * p
  {
  }

  lemma DivBelow(k: nat, p: nat, m: nat)
    requires k < m * p
    ensures p > 0 && k / p < m && k % p < p
  {
  }

  lemma MulAddBelow(q: nat, r: nat, p: nat, m: nat)
    requires q < m && r < p
    ensures q * p + r < m * p
  {
    assert q * p <= (m - 1) * p;
  }

  lemma MulSmall(x: int, p: int)
    requires p > 0 && -p < x * p < p
    ensures x == 0
  {
  }

  lemma DivModUnique(q: int, r: int, p: int)
    requires p > 0 && 0 <= r < p
    ensures (q * p + r) / p == q && (q * p + r) % p == r
  {
    var k := q * p + r;
    var q', r' := k / p, k % p;
    assert k == q' * p + r';
    assert (q - q') * p == r' - r;
    MulSmall(q - q', p);
  }

  lemma DivOrder(x: int, y: int, p: int)
    requires 0 <= x < y && p > 0
    ensures x / p < y / p || (x / p == y / p && x % p < y % p)
  {
    if x / p > y / p {
      MulSucc(y / p, p);
      MulMono(y / p + 1, x / p, p);
    }
  }

  /** Entry q * |rest| + r of the layers is the first index a + q followed by rest's entry r. */
  lemma {:induction false} LayersAt(a: int, b: int, rest: seq<seq<int>>, q: int, r: int)
    requires 0 <= q < b - a && 0 <= r < |rest|
    ensures q * |rest| + r < |Layers(a, b, rest)|
    ensures Layers(a, b, rest)[q * |rest| + r] == [a + q] + rest[r]
    decreases b - a
  {
    var p := |rest|;
    assert Layers(a, b, rest) == Prepend(a, rest) + Layers(a + 1, b, rest);
    if q > 0 {
      LayersAt(a + 1, b, rest, q - 1, r);
      MulSucc(q - 1, p);
      MulSucc(b - a - 1, p);
    }
  }

  /** Entry k of the layers, through the quotient and remainder of k by |rest|. */
  lemma LayersAtFlat(a: int, b: int, rest: seq<seq<int>>, k: nat)
    requires k < |Layers(a, b, rest)|
    ensures |rest| > 0 && k / |rest| < b - a
    ensures Layers(a, b, rest)[k] == [a + k / |rest|] + rest[k % |rest|]
  {
    var p := |rest|;
    DivBelow(k, p, Extent(Range(a, b)));
    DivModSplit(k, p);
    LayersAt(a, b, rest, k / p, k % p);
  }

  lemma DivModSplit(k: nat, p: nat)
    requires p > 0
    ensures k == (k / p) * p + k % p
  {
  }

  /** Cell `k` of a slab is its start vector plus the multi-index of `k`. */
  lemma {:induction false} CellsAt(rs: seq<Range>, k: nat)
    requires k < |Cells(rs)|
    ensures |Cells(rs)[k]| == |rs|
    ensures forall i :: 0 <= i < |rs| ==> Cells(rs)[k][i] == rs[i].start + Unravel(Extents(rs), k)[i]
    decreases |rs|
  {
    if |rs| > 0 {
      var rest := Cells(rs[1..]);
      assert Extents(rs)[1..] == Extents(rs[1..]);
      LayersAtFlat(rs[0].start, rs[0].stop, rest, k);
      var p := |rest|;
      CellsAt(rs[1..], k % p);
      var u := Unravel(Extents(rs), k);
      assert u == [k / p] + Unravel(Extents(rs[1..]), k % p);
      forall i | 0 <= i < |rs|
        ensures Cells(rs)[k][i] == rs[i].start + u[i]
      {
        if i > 0 {
          assert Cells(rs)[k][i] == rest[k % p][i - 1];
        }
      }
    }
  }

  /** Every component of a multi-index is below its axis length. */
  lemma {:induction false} UnravelBounds(n: seq<nat>, k: nat)
    requires k < Prod(n)
    ensures forall i :: 0 <= i < |n| ==> Unravel(n, k)[i] < n[i]
    decreases |n|
  {
    if |n| > 0 {
      var p := Prod(n[1..]);
      DivBelow(k, p, n[0]);
      UnravelBounds(n[1..], k % p);
      var u := Unravel(n, k);
      assert u[1..] == Unravel(n[1..], k % p);
      forall i | 1 <= i < |n| ensures u[i] < n[i] {
        assert u[i] == u[1..][i - 1];
      }
    }
  }

  /** Every cell of a slab has one index per axis, inside that axis's range. */
  lemma CellsInSlab(rs: seq<Range>, k: nat)
    requires k < |Cells(rs)|
    ensures |Cells(rs)[k]| == |rs|
    ensures forall i :: 0 <= i < |rs| ==> rs[i].start <= Cells(rs)[k][i] < rs[i].stop
  {
    CellsAt(rs, k);
    UnravelBounds(Extents(rs), k);
  }

  lemma {:induction false} UnravelRavel(n: seq<nat>, c: seq<int>)
    requires |c| == |n| && forall i :: 0 <= i < |n| ==> 0 <= c[i] < n[i]
    ensures Unravel(n, Ravel(n, c)) == c
    decreases |n|
  {
    if |n| > 0 {
      var p := Prod(n[1..]);
      var r := Ravel(n[1..], c[1..]);
      DivModUnique(c[0], r, p);
      UnravelRavel(n[1..], c[1..]);
    }
  }

  /** Every coordinate of the whole array is the cell at its raveled position. */
  lemma CellsRavel(shape: Shape, c: seq<int>)
    requires |c| == |shape| && forall i :: 0 <= i < |shape| ==> 0 <= c[i] < shape[i]
    ensures Extents(Full(shape)) == shape
    ensures Ravel(shape, c) < |Cells(Full(shape))| && Cells(Full(shape))[Ravel(shape, c)] == c
  {
    assert Extents(Full(shape)) == shape;
    CellsAt(Full(shape), Ravel(shape, c));
    UnravelRavel(shape, c);
  }

  /** Python's tuple order on coordinates of equal rank. */
  predicate LexLess(a: seq<int>, b: seq<int>)
    decreases |a|
  {
    |a| > 0 && |b| > 0 && (a[0] < b[0] || (a[0] == b[0] && LexLess(a[1..], b[1..])))
  }

  /** Strictly increasing in tuple order. */
  predicate LexSorted(cs: seq<seq<int>>)
  {
    forall x, y :: 0 <= x < y < |cs| ==> LexLess(cs[x], cs[y])
  }

  /** Row-major order is strictly increasing tuple order. */
  lemma {:induction false} CellsSorted(rs: seq<Range>)
    ensures LexSorted(Cells(rs))
    decreases |rs|
  {
    if |rs| > 0 {
      var rest := Cells(rs[1..]);
      CellsSorted(rs[1..]);
      var cs := Cells(rs);
      forall x, y | 0 <= x < y < |cs|
        ensures LexLess(cs[x], cs[y])
      {
        LayersAtFlat(rs[0].start, rs[0].stop, rest, x);
        LayersAtFlat(rs[0].start, rs[0].stop, rest, y);
        var p := |rest|;
        DivOrder(x, y, p);
        assert cs[x][1..] == rest[x % p];
        assert cs[y][1..] == rest[y % p];
      }
    }
  }

  /** numpy's `mgrid` over the slab `rs`, each axis's grid raveled in row-major order. */
  function Mgrid(rs: seq<Range>): (g: seq<seq<int>>)
    ensures |g| == |rs| && forall i :: 0 <= i < |rs| ==> |g[i]| == Prod(Extents(rs))
  {
    var n := Extents(rs);
    seq(|rs|, i requires 0 <= i < |rs| =>
      seq(Prod(n), k requires 0 <= k < Prod(n) => rs[i].start + Unravel(n, k)[i]))
  }

  /** Every range runs forwards (possibly empty); `mgrid` raises on one with start > stop. */
  predicate Ordered(rs: seq<Range>)
  {
    forall i :: 0 <= i < |rs| ==> rs[i].start <= rs[i].stop
  }

  /** With at most one bound given, the clamped slab is always ordered. */
  lemma OneBoundOrdered(shape: Shape, bound: seq<int>)
    requires |bound| == |shape|
    ensures Ordered(SlabOf(shape, bound, shape))
    ensures Ordered(SlabOf(shape, Zeros(|shape|), bound))
  {
  }

  /**
   * `index_mesh`: the mesh of a slab. Row i of the result holds the axis-i
   * index of every cell of the slab, in row-major cell order. A clamped lower
   * bound above the clamped upper bound gives `mgrid` a negative axis length,
   * which it rejects: that error is `None`.
   */
  method IndexMesh(shape: Shape, lower: Option<array<int>>, upper: Option<array<int>>) returns (msh: Option<seq<seq<int>>>)
    requires |shape| > 0
    requires lower.Some? ==> lower.value.Length == |shape|
    requires upper.Some? ==> upper.value.Length == |shape|
    ensures var sl := SlabOf(shape, BoundOr(lower, Zeros(|shape|)), BoundOr(upper, shape));
      msh.None? <==> !Ordered(sl)
    ensures var cs := Cells(SlabOf(shape, BoundOr(lower, Zeros(|shape|)), BoundOr(upper, shape)));
      msh.Some? ==>
      && |msh.value| == |shape|
      && (forall i :: 0 <= i < |shape| ==> |msh.value[i]| == |cs|)
      && forall i, k :: 0 <= i < |shape| && 0 <= k < |cs| ==> |cs[k]| == |shape| && msh.value[i][k] == cs[k][i]
  {
    var sl := Slab(shape, lower, upper);
    var slices := [];
    for i := 0 to |shape|
      invariant slices == sl[..i]
    {
      slices := slices + [Range(sl[i].start, sl[i].stop)];
    }
    assert slices == sl;
    if !Ordered(slices) {
      return None;
    }
    msh := Some(Mgrid(slices));
    MgridCells(sl);
  }

  /** Row i of the mesh of a slab lists the axis-i index of every cell of the slab. */
  lemma MgridCells(rs: seq<Range>)
    ensures forall i :: 0 <= i < |rs| ==> |Mgrid(rs)[i]| == |Cells(rs)|
    ensures forall k :: 0 <= k < |Cells(rs)| ==> |Cells(rs)[k]| == |rs|
    ensures forall i, k :: 0 <= i < |rs| && 0 <= k < |Cells(rs)| ==> Mgrid(rs)[i][k] == Cells(rs)[k][i]
  {
    forall i, k | 0 <= i < |rs| && 0 <= k < |Cells(rs)|
      ensures |Cells(rs)[k]| == |rs| && Mgrid(rs)[i][k] == Cells(rs)[k][i]
    {
      CellsAt(rs, k);
      MgridAt(rs, i, k);
    }
    forall k | 0 <= k < |Cells(rs)|
      ensures |Cells(rs)[k]| == |rs|
    {
      CellsAt(rs, k);
    }
  }

  lemma MgridAt(rs: seq<Range>, i: nat, k: nat)
    requires i < |rs| && k < Prod(Extents(rs))
    ensures Mgrid(rs)[i][k] == rs[i].start + Unravel(Extents(rs), k)[i]
  {
  }

  /**
   * `index_features`: the mesh rows in reverse axis order. Column k is the k-th
   * cell of the slab in row-major order, with its indices reversed. The error
   * of `index_mesh` passes through.
   */
  method IndexFeatures(shape: Shape, lower: Option<array<int>>, upper: Option<array<int>>) returns (ii: Option<seq<seq<int>>>)
    requires |shape| > 0
    requires lower.Some? ==> lower.value.Length == |shape|
    requires upper.Some? ==> upper.value.Length == |shape|
    ensures var sl := SlabOf(shape, BoundOr(lower, Zeros(|shape|)), BoundOr(upper, shape));
      ii.None? <==> !Ordered(sl)
    ensures var cs := Cells(SlabOf(shape, BoundOr(lower, Zeros(|shape|)), BoundOr(upper, shape)));
      ii.Some? ==>
      && |ii.value| == |shape|
      && (forall r :: 0 <= r < |shape| ==> |ii.value[r]| == |cs|)
      && forall i, k :: 0 <= i < |shape| && 0 <= k < |cs| ==>
           |cs[k]| == |shape| && ii.value[|shape| - 1 - i][k] == cs[k][i]
  {
    var mesh := IndexMesh(shape, lower, upper);
    if mesh.None? {
      return None;
    }
    var msh := mesh.value;
    var dim := |shape|;
    var size := |msh[0]|;
    var rows := seq(dim, _ => seq(size, _ => 0));
    for i := 0 to dim
      invariant |rows| == dim
      invariant forall j :: 0 <= j < i ==> rows[dim - 1 - j] == msh[j]
    {
      rows := rows[dim - 1 - i := msh[i]];
    }
    assert forall j :: 0 <= j < dim ==> rows[dim - 1 - j] == msh[j];
    forall r | 0 <= r < dim
      ensures rows[r] == msh[dim - 1 - r]
    {
      assert rows[dim - 1 - (dim - 1 - r)] == msh[dim - 1 - r];
    }
    ii := Some(rows);
  }
}

=== FILE: fellwalker.dfy ===
/**
 * The clump bookkeeping around acalib's FellWalker clump finder
 * (`algorithms/fellwalker.py`): grouping the cells of a clump-assignment
 * array (CAA) by label, finding each clump's peak, squeezing leading
 * singleton axes before clumping and remapping the clumper's minimum label
 * to 0 after it. Arrays are a shape plus their cells in row-major order.
 */
module Fellwalker {
  import opened Wrappers
  import opened Axes

  /** A numpy multi-index tuple. */
  type Coord = seq<int>

  /** An n-dimensional numpy array: its shape and its cells in row-major order. */
  datatype Grid<T> = Grid(shape: Shape, cells: seq<T>)
  {
    predicate Valid() { |cells| == Prod(shape) }
  }

  /** A multi-index inside an array of the given shape. */
  predicate InBox(shape: Shape, c: Coord)
  {
    |c| == |shape| && forall i :: 0 <= i < |shape| ==> 0 <= c[i] < shape[i]
  }

  /** Indexing an array with a full tuple, `g[c]`. */
  function At<T>(g: Grid<T>, c: Coord): T
    requires g.Valid() && InBox(g.shape, c)
  {
    g.cells[Ravel(g.shape, c)]
  }

  /** Every multi-index of an array, in row-major (nested-loop) order. */
  function Raster(shape: Shape): (cs: seq<Coord>)
    ensures |cs| == Prod(shape)
  {
    assert Extents(Full(shape)) == shape;
    Cells(Full(shape))
  }

  lemma RasterInBox(shape: Shape)
    ensures forall k :: 0 <= k < |Raster(shape)| ==> InBox(shape, Raster(shape)[k])
  {
    forall k | 0 <= k < |Raster(shape)|
      ensures InBox(shape, Raster(shape)[k])
    {
      CellsInSlab(Full(shape), k);
    }
  }

  // ---------------------------------------------------------------------------
  // Float comparison
  // ---------------------------------------------------------------------------

  /** A float data value as far as `>` can tell: NaN, an infinity or a finite value. */
  datatype Value = NaN | NegInf | Fin(x: int) | PosInf

  function Rank(v: Value): int
  {
    match v
    case NegInf => 0
    case Fin(_) => 1
    case PosInf => 2
    case NaN => 3
  }

  /** Python's float `a > b`: false whenever either side is NaN. */
  predicate Gt(a: Value, b: Value)
  {
    !a.NaN? && !b.NaN? && (Rank(a) > Rank(b) || (a.Fin? && b.Fin? && a.x > b.x))
  }

  /** Among non-NaN values `>` is a strict total order. */
  lemma GtTotal(a: Value, b: Value, c: Value)
    requires !a.NaN? && !b.NaN? && !c.NaN?
    ensures a == b || Gt(a, b) || Gt(b, a)
    ensures !(Gt(a, b) && Gt(b, a))
    ensures Gt(a, b) && !Gt(c, b) ==> Gt(a, c)
  {
  }

  // ---------------------------------------------------------------------------
  // Grouping cells by label
  // ---------------------------------------------------------------------------

  /**
   * The dictionary `_struct_builder` builds from the coordinates `cs`, visited
   * in order with labels `ls`: the first visit of a label starts its list,
   * later visits append to it.
   */
  function Group(cs: seq<Coord>, ls: seq<int>): map<int, seq<Coord>>
    requires |cs| == |ls|
  {
    if |cs| == 0 then map[]
    else
      var m := Group(cs[..|cs| - 1], ls[..|ls| - 1]);
      var l, c := ls[|ls| - 1], cs[|cs| - 1];
      if l in m then m[l := m[l] + [c]] else m[l := [c]]
  }

  /** The coordinates among `cs` whose label is `l`, in visiting order. */
  function Members(cs: seq<Coord>, ls: seq<int>, l: int): seq<Coord>
    requires |cs| == |ls|
  {
    if |cs| == 0 then []
    else
      Members(cs[..|cs| - 1], ls[..|ls| - 1], l) + if ls[|ls| - 1] == l then [cs[|cs| - 1]] else []
  }

  lemma {:induction false} MembersIn(cs: seq<Coord>, ls: seq<int>, l: int, c: Coord)
    requires |cs| == |ls|
    ensures c in Members(cs, ls, l) <==> exists i :: 0 <= i < |cs| && cs[i] == c && ls[i] == l
  {
    if |cs| > 0 {
      var n := |cs| - 1;
      MembersIn(cs[..n], ls[..n], l, c);
      if exists i :: 0 <= i < |cs| && cs[i] == c && ls[i] == l {
        var i :| 0 <= i < |cs| && cs[i] == c && ls[i] == l;
        if i < n {
          assert cs[..n][i] == c && ls[..n][i] == l;
        }
      }
    }
  }

  /** Each list of the dictionary is the label's members; a label without members has no key. */
  lemma {:induction false} GroupMembers(cs: seq<Coord>, ls: seq<int>)
    requires |cs| == |ls|
    ensures forall l :: l in Group(cs, ls) ==> Group(cs, ls)[l] == Members(cs, ls, l) != []
    ensures forall l :: l !in Group(cs, ls) ==> Members(cs, ls, l) == []
  {
    if |cs| > 0 {
      GroupMembers(cs[..|cs| - 1], ls[..|ls| - 1]);
    }
  }

  /** The keys of the dictionary are exactly the labels present, background 0 included. */
  lemma GroupKeys(cs: seq<Coord>, ls: seq<int>)
    requires |cs| == |ls|
    ensures Group(cs, ls).Keys == set i | 0 <= i < |ls| :: ls[i]
  {
    GroupMembers(cs, ls);
    forall l | l in Group(cs, ls)
      ensures exists i :: 0 <= i < |ls| && ls[i] == l
    {
      var c := Members(cs, ls, l)[0];
      MembersIn(cs, ls, l, c);
    }
    forall i | 0 <= i < |ls|
      ensures ls[i] in Group(cs, ls)
    {
      MembersIn(cs, ls, ls[i], cs[i]);
    }
  }

  lemma LexLessIrreflexive(a: seq<int>)
    ensures !LexLess(a, a)
  {
  }

  lemma SortedDistinct(cs: seq<Coord>, i: nat, j: nat)
    requires LexSorted(cs) && i < |cs| && j < |cs|
    ensures cs[i] == cs[j] ==> i == j
  {
    LexLessIrreflexive(cs[i]);
  }

  /**
   * With distinct coordinates (row-major order is strictly increasing), every
   * cell lies in exactly one list: the one keyed by its own label.
   */
  lemma GroupPartition(cs: seq<Coord>, ls: seq<int>)
    requires |cs| == |ls| && LexSorted(cs)
    ensures forall i :: 0 <= i < |cs| ==> ls[i] in Group(cs, ls) && cs[i] in Group(cs, ls)[ls[i]]
    ensures forall i, l :: 0 <= i < |cs| && l in Group(cs, ls) && cs[i] in Group(cs, ls)[l] ==> l == ls[i]
  {
    GroupMembers(cs, ls);
    GroupKeys(cs, ls);
    forall i | 0 <= i < |cs|
      ensures cs[i] in Group(cs, ls)[ls[i]]
    {
      MembersIn(cs, ls, ls[i], cs[i]);
    }
    forall i, l | 0 <= i < |cs| && l in Group(cs, ls) && cs[i] in Group(cs, ls)[l]
      ensures l == ls[i]
    {
      MembersIn(cs, ls, l, cs[i]);
      var j :| 0 <= j < |cs| && cs[j] == cs[i] && ls[j] == l;
      SortedDistinct(cs, i, j);
    }
  }

  lemma SomeKey(m: map<int, seq<Coord>>)
    ensures m == map[] || exists l :: l in m
  {
    assert (forall l :: l !in m) ==> m.Keys == {};
  }

  /** Sum of the lengths of all lists of a dictionary. */
  ghost function TotalLen(m: map<int, seq<Coord>>): nat
    decreases |m.Keys|
  {
    if m == map[] then 0
    else
      SomeKey(m);
      var l :| l in m;
      assert (m - {l}).Keys < m.Keys;
      |m[l]| + TotalLen(m - {l})
  }

  lemma {:induction false} TotalLenRemove(m: map<int, seq<Coord>>, k: int)
    requires k in m
    ensures TotalLen(m) == |m[k]| + TotalLen(m - {k})
    decreases |m.Keys|
  {
    var l :| l in m && TotalLen(m) == |m[l]| + TotalLen(m - {l});
    if l != k {
      assert (m - {l}).Keys < m.Keys && (m - {k}).Keys < m.Keys;
      TotalLenRemove(m - {l}, k);
      TotalLenRemove(m - {k}, l);
      assert m - {l} - {k} == m - {k} - {l};
    }
  }

  lemma TotalLenUpdate(m: map<int, seq<Coord>>, l: int, s: seq<Coord>)
    ensures TotalLen(m[l := s]) == TotalLen(m) - (if l in m then |m[l]| else 0) + |s|
  {
    TotalLenRemove(m[l := s], l);
    assert m[l := s] - {l} == m - {l};
    if l in m {
      TotalLenRemove(m, l);
    } else {
      assert m - {l} == m;
    }
  }

  /** The lists hold as many coordinates, all told, as there are cells. */
  lemma {:induction false} GroupTotal(cs: seq<Coord>, ls: seq<int>)
    requires |cs| == |ls|
    ensures TotalLen(Group(cs, ls)) == |cs|
  {
    if |cs| > 0 {
      var n := |cs| - 1;
      GroupTotal(cs[..n], ls[..n]);
      var m := Group(cs[..n], ls[..n]);
      if ls[n] in m {
        TotalLenUpdate(m, ls[n], m[ls[n]] + [cs[n]]);
      } else {
        TotalLenUpdate(m, ls[n], [cs[n]]);
      }
    }
  }

  lemma {:induction false} MembersSorted(cs: seq<Coord>, ls: seq<int>, l: int)
    requires |cs| == |ls| && LexSorted(cs)
    ensures LexSorted(Members(cs, ls, l))
  {
    if |cs| > 0 {
      var n := |cs| - 1;
      assert LexSorted(cs[..n]) by {
        forall x, y | 0 <= x < y < n ensures LexLess(cs[..n][x], cs[..n][y]) {
          assert cs[..n][x] == cs[x] && cs[..n][y] == cs[y];
        }
      }
      MembersSorted(cs[..n], ls[..n], l);
      var r := Members(cs[..n], ls[..n], l);
      if ls[n] == l {
        forall x | 0 <= x < |r|
          ensures LexLess(r[x], cs[n])
        {
          MembersIn(cs[..n], ls[..n], l, r[x]);
          var i :| 0 <= i < n && cs[..n][i] == r[x] && ls[..n][i] == l;
          assert cs[i] == r[x];
        }
        var r' := r + [cs[n]];
        forall x, y | 0 <= x < y < |r'|
          ensures LexLess(r'[x], r'[y])
        {
          if y < |r| {
            assert r'[x] == r[x] && r'[y] == r[y];
          }
        }
      }
    }
  }

  /** Each list is in strictly increasing row-major order when the visit order is. */
  lemma GroupSorted(cs: seq<Coord>, ls: seq<int>)
    requires |cs| == |ls| && LexSorted(cs)
    ensures forall l :: l in Group(cs, ls) ==> LexSorted(Group(cs, ls)[l])
  {
    GroupMembers(cs, ls);
    forall l | l in Group(cs, ls)
      ensures LexSorted(Group(cs, ls)[l])
    {
      MembersSorted(cs, ls, l);
    }
  }

  /** Every coordinate in a list is a cell of the array. */
  lemma GroupInBox(shape: Shape, ls: seq<int>)
    requires |ls| == Prod(shape)
    ensures forall l, t :: l in Group(Raster(shape), ls) && 0 <= t < |Group(Raster(shape), ls)[l]| ==>
      InBox(shape, Group(Raster(shape), ls)[l][t])
  {
    var cs := Raster(shape);
    GroupMembers(cs, ls);
    RasterInBox(shape);
    forall l, t | l in Group(cs, ls) && 0 <= t < |Group(cs, ls)[l]|
      ensures InBox(shape, Group(cs, ls)[l][t])
    {
      MembersIn(cs, ls, l, Group(cs, ls)[l][t]);
    }
  }

  /** One more visit: the dictionary after n + 1 cells from the one after n. */
  lemma GroupStep(cs: seq<Coord>, ls: seq<int>, n: nat)
    requires |cs| == |ls| && n < |cs|
    ensures Group(cs[..n + 1], ls[..n + 1]) ==
      var m := Group(cs[..n], ls[..n]);
      if ls[n] in m then m[ls[n] := m[ls[n]] + [cs[n]]] else m[ls[n] := [cs[n]]]
  {
    assert cs[..n + 1][..n] == cs[..n] && ls[..n + 1][..n] == ls[..n];
  }

  // ---------------------------------------------------------------------------
  // Peaks
  // ---------------------------------------------------------------------------

  /** The data values at a list of coordinates. */
  function Values(data: Grid<Value>, pl: seq<Coord>): (vs: seq<Value>)
    requires data.Valid() && forall t :: 0 <= t < |pl| ==> InBox(data.shape, pl[t])
    ensures |vs| == |pl|
  {
    seq(|pl|, t requires 0 <= t < |pl| => At(data, pl[t]))
  }

  /**
   * Position j holds the peak: a value above -inf that no other value
   * exceeds, and the first such, since every earlier (non-NaN) value is
   * strictly below it.
   */
  predicate IsPeak(vs: seq<Value>, j: int)
  {
    && 0 <= j < |vs|
    && Gt(vs[j], NegInf)
    && (forall t :: 0 <= t < j && !vs[t].NaN? ==> Gt(vs[j], vs[t]))
    && (forall t :: j < t < |vs| ==> !Gt(vs[t], vs[j]))
  }

  /** No value exceeds -inf: every value is -inf or NaN. */
  predicate NoPeak(vs: seq<Value>)
  {
    forall t :: 0 <= t < |vs| ==> !Gt(vs[t], NegInf)
  }

  /** The peak entry `_struct_builder` records for the list `pl`. */
  predicate PeakOf(data: Grid<Value>, pl: seq<Coord>, peak: Option<Coord>)
  {
    && data.Valid()
    && (forall t :: 0 <= t < |pl| ==> InBox(data.shape, pl[t]))
    && (peak.None? <==> NoPeak(Values(data, pl)))
    && (peak.Some? ==> exists j :: 0 <= j < |pl| && IsPeak(Values(data, pl), j) && peak.value == pl[j])
  }

  /** The peak is at least every non-NaN value and strictly above every earlier one. */
  lemma PeakIsFirstMaximum(vs: seq<Value>, j: int)
    requires IsPeak(vs, j)
    ensures forall t :: 0 <= t < |vs| && !vs[t].NaN? ==> vs[t] == vs[j] || Gt(vs[j], vs[t])
    ensures forall t :: 0 <= t < j ==> vs[t] != vs[j]
  {
    forall t | 0 <= t < |vs| && !vs[t].NaN?
      ensures vs[t] == vs[j] || Gt(vs[j], vs[t])
    {
      GtTotal(vs[t], vs[j], vs[j]);
    }
    forall t | 0 <= t < j
      ensures vs[t] != vs[j]
    {
      GtTotal(vs[j], vs[j], vs[j]);
    }
  }

  /** There is at most one peak position. */
  lemma PeakUnique(vs: seq<Value>, j: int, k: int)
    requires IsPeak(vs, j) && IsPeak(vs, k)
    ensures j == k
  {
  }

  /** With finite data every non-empty list has a peak. */
  lemma FinitePeak(vs: seq<Value>)
    requires |vs| > 0 && forall t :: 0 <= t < |vs| ==> vs[t].Fin?
    ensures !NoPeak(vs)
  {
    assert Gt(vs[0], NegInf);
  }

  /** One more value after a run with no peak: it is the peak iff it exceeds -inf. */
  lemma PeakStepNone(ws: seq<Value>, v: Value)
    requires NoPeak(ws)
    ensures Gt(v, NegInf) ==> IsPeak(ws + [v], |ws|)
    ensures !Gt(v, NegInf) ==> NoPeak(ws + [v])
  {
    var vs := ws + [v];
    assert forall t :: 0 <= t < |ws| ==> vs[t] == ws[t];
    if Gt(v, NegInf) {
      forall t | 0 <= t < |ws| && !vs[t].NaN?
        ensures Gt(v, vs[t])
      {
        GtTotal(v, NegInf, vs[t]);
      }
    }
  }

  /** One more value after a run with peak `b`: it takes over iff it is strictly greater. */
  lemma PeakStepSome(ws: seq<Value>, b: int, v: Value)
    requires IsPeak(ws, b)
    ensures Gt(v, ws[b]) ==> IsPeak(ws + [v], |ws|)
    ensures !Gt(v, ws[b]) ==> IsPeak(ws + [v], b)
  {
    var vs := ws + [v];
    assert forall t :: 0 <= t < |ws| ==> vs[t] == ws[t];
    if Gt(v, ws[b]) {
      GtTotal(v, ws[b], NegInf);
      forall t | 0 <= t < |ws| && !vs[t].NaN?
        ensures Gt(v, vs[t])
      {
        GtTotal(v, ws[b], vs[t]);
        GtTotal(ws[b], vs[t], vs[t]);
      }
    }
  }

  /**
   * The peak loop of `_struct_builder` for one clump: the running maximum
   * starts at -inf and moves to each value strictly above it.
   */
  method FindPeak(data: Grid<Value>, pl: seq<Coord>) returns (peak: Option<Coord>)
    requires data.Valid() && forall t :: 0 <= t < |pl| ==> InBox(data.shape, pl[t])
    ensures PeakOf(data, pl, peak)
  {
    ghost var vs := Values(data, pl);
    ghost var best := 0;
    peak := None;
    var maxValue := NegInf;
    for t := 0 to |pl|
      invariant peak.None? <==> NoPeak(vs[..t])
      invariant peak.None? ==> maxValue == NegInf
      invariant peak.Some? ==> IsPeak(vs[..t], best) && peak.value == pl[best] && maxValue == vs[best]
    {
      var v := At(data, pl[t]);
      assert vs[..t + 1] == vs[..t] + [v];
      if peak.None? {
        PeakStepNone(vs[..t], v);
      } else {
        PeakStepSome(vs[..t], best, v);
      }
      if Gt(v, maxValue) {
        maxValue := v;
        peak := Some(pl[t]);
        best := t;
      }
    }
    assert vs[..|pl|] == vs;
  }

  // ---------------------------------------------------------------------------
  // _struct_builder
  // ---------------------------------------------------------------------------

  lemma Ravel2(dims: Shape, i: nat, j: nat)
    requires |dims| == 2 && i < dims[0] && j < dims[1]
    ensures InBox(dims, [i, j]) && Ravel(dims, [i, j]) == i * dims[1] + j
  {
    assert dims[1..][1..] == [] && [i, j][1..][1..] == [];
  }

  lemma Ravel3(dims: Shape, i: nat, j: nat, k: nat)
    requires |dims| == 3 && i < dims[0] && j < dims[1] && k < dims[2]
    ensures InBox(dims, [i, j, k]) && Ravel(dims, [i, j, k]) == i * (dims[1] * dims[2]) + j * dims[2] + k
  {
    var d1, d2 := dims[1..], dims[2..];
    var c1, c2 := [i, j, k][1..], [i, j, k][2..];
    assert d2[1..] == [] && c2[1..] == [];
    assert c1 == [j, k] && c2 == [k] && d1[1..] == d2 && c1[1..] == c2;
    assert Prod(d2) == dims[2];
    assert Ravel(d2, c2) == k;
    assert Ravel(d1, c1) == j * dims[2] + k;
    assert Prod(d1) == dims[1] * dims[2];
  }

  /** The n-th raster coordinate is `c`, and the label read at `c` is cell n of the label array. */
  lemma VisitCell(caa: Grid<int>, c: Coord, n: nat)
    requires caa.Valid() && InBox(caa.shape, c) && Ravel(caa.shape, c) == n
    ensures n < |Raster(caa.shape)| && Raster(caa.shape)[n] == c && At(caa, c) == caa.cells[n]
  {
    CellsRavel(caa.shape, c);
  }

  /**
   * The body of the innermost loop: append the visited coordinate to the list
   * of its label, starting the list if the label is new.
   */
  method Visit(caa: Grid<int>, c: Coord, ghost n: nat, clumps: map<int, seq<Coord>>) returns (next: map<int, seq<Coord>>)
    requires caa.Valid() && InBox(caa.shape, c) && Ravel(caa.shape, c) == n && n <= |Raster(caa.shape)|
    requires clumps == Group(Raster(caa.shape)[..n], caa.cells[..n])
    ensures n < |Raster(caa.shape)| && next == Group(Raster(caa.shape)[..n + 1], caa.cells[..n + 1])
  {
    VisitCell(caa, c, n);
    GroupStep(Raster(caa.shape), caa.cells, n);
    var l := At(caa, c);
    if l in clumps {
      next := clumps[l := clumps[l] + [c]];
    } else {
      next := clumps[l := [c]];
    }
  }

  lemma ProdRank2(dims: Shape)
    requires |dims| == 2
    ensures Prod(dims) == dims[0] * dims[1]
  {
    assert dims[1..][1..] == [];
    assert Prod(dims[1..]) == dims[1];
  }

  lemma ProdRank3(dims: Shape)
    requires |dims| == 3
    ensures Prod(dims) == dims[0] * (dims[1] * dims[2])
  {
    assert dims[1..][1..][1..] == [];
    assert Prod(dims[2..]) == dims[2];
  }

  /** The rank-2 double loop of `_struct_builder`. */
  method GroupRank2(caa: Grid<int>) returns (clumps: map<int, seq<Coord>>)
    requires caa.Valid() && |caa.shape| == 2
    ensures clumps == Group(Raster(caa.shape), caa.cells)
  {
    var dims := caa.shape;
    ghost var cs := Raster(dims);
    ghost var n: nat := 0;
    clumps := map[];
    for i := 0 to dims[0]
      invariant n == i * dims[1] && n <= |cs|
      invariant clumps == Group(cs[..n], caa.cells[..n])
    {
      clumps := GroupRow(caa, i, n, clumps);
      n := n + dims[1];
      MulSucc(i, dims[1]);
    }
    ProdRank2(dims);
    assert cs[..n] == cs && caa.cells[..n] == caa.cells;
  }

  /** The inner loop of the rank-2 case: every cell of row `i`. */
  method GroupRow(caa: Grid<int>, i: nat, ghost n0: nat, clumps0: map<int, seq<Coord>>) returns (clumps: map<int, seq<Coord>>)
    requires caa.Valid() && |caa.shape| == 2 && i < caa.shape[0]
    requires n0 == i * caa.shape[1] && n0 <= |Raster(caa.shape)|
    requires clumps0 == Group(Raster(caa.shape)[..n0], caa.cells[..n0])
    ensures n0 + caa.shape[1] <= |Raster(caa.shape)|
    ensures clumps == Group(Raster(caa.shape)[..n0 + caa.shape[1]], caa.cells[..n0 + caa.shape[1]])
  {
    var dims := caa.shape;
    ghost var n: nat := n0;
    clumps := clumps0;
    for j := 0 to dims[1]
      invariant n == n0 + j && n <= |Raster(dims)|
      invariant clumps == Group(Raster(dims)[..n], caa.cells[..n])
    {
      Ravel2(dims, i, j);
      clumps := Visit(caa, [i, j], n, clumps);
      n := n + 1;
    }
  }

  /** The rank-3 triple loop of `_struct_builder`. */
  method GroupRank3(caa: Grid<int>) returns (clumps: map<int, seq<Coord>>)
    requires caa.Valid() && |caa.shape| == 3
    ensures clumps == Group(Raster(caa.shape), caa.cells)
  {
    var dims := caa.shape;
    ghost var cs := Raster(dims);
    ghost var plane := dims[1] * dims[2];
    ghost var n: nat := 0;
    clumps := map[];
    for i := 0 to dims[0]
      invariant n == i * plane && n <= |cs|
      invariant clumps == Group(cs[..n], caa.cells[..n])
    {
      clumps := GroupPlane(caa, cs, i, n, clumps);
      n := n + plane;
      MulSucc(i, plane);
    }
    ProdRank3(dims);
    assert cs[..n] == cs && caa.cells[..n] == caa.cells;
  }

  /** The middle loop of the rank-3 case: every cell of plane `i`. */
  method GroupPlane(caa: Grid<int>, ghost cs: seq<Coord>, i: nat, ghost n0: nat, clumps0: map<int, seq<Coord>>)
    returns (clumps: map<int, seq<Coord>>)
    requires caa.Valid() && |caa.shape| == 3 && i < caa.shape[0]
    requires cs == Raster(caa.shape) && |cs| == |caa.cells|
    requires n0 == i * (caa.shape[1] * caa.shape[2]) && n0 <= |cs|
    requires clumps0 == Group(cs[..n0], caa.cells[..n0])
    ensures n0 + caa.shape[1] * caa.shape[2] <= |cs|
    ensures clumps == Group(cs[..n0 + caa.shape[1] * caa.shape[2]], caa.cells[..n0 + caa.shape[1] * caa.shape[2]])
  {
    var dims := caa.shape;
    ghost var n: nat := n0;
    clumps := clumps0;
    for j := 0 to dims[1]
      invariant n <= |cs| && clumps == Group(cs[..n], caa.cells[..n])
      invariant n == n0 + j * dims[2]
    {
      clumps := GroupLine(caa, i, j, n, clumps);
      n := n + dims[2];
      MulSucc(j, dims[2]);
    }
  }

  /** The innermost loop of the rank-3 case: every cell of line (`i`, `j`). */
  method GroupLine(caa: Grid<int>, i: nat, j: nat, ghost n0: nat, clumps0: map<int, seq<Coord>>) returns (clumps: map<int, seq<Coord>>)
    requires caa.Valid() && |caa.shape| == 3 && i < caa.shape[0] && j < caa.shape[1]
    requires n0 == i * (caa.shape[1] * caa.shape[2]) + j * caa.shape[2] && n0 <= |Raster(caa.shape)|
    requires clumps0 == Group(Raster(caa.shape)[..n0], caa.cells[..n0])
    ensures n0 + caa.shape[2] <= |Raster(caa.shape)|
    ensures clumps == Group(Raster(caa.shape)[..n0 + caa.shape[2]], caa.cells[..n0 + caa.shape[2]])
  {
    var dims := caa.shape;
    ghost var n: nat := n0;
    clumps := clumps0;
    for k := 0 to dims[2]
      invariant n == n0 + k && n <= |Raster(dims)|
      invariant clumps == Group(Raster(dims)[..n], caa.cells[..n])
    {
      Ravel3(dims, i, j, k);
      clumps := Visit(caa, [i, j, k], n, clumps);
      n := n + 1;
    }
  }

  lemma SomeLabel(s: set<int>)
    ensures s == {} || exists l :: l in s
  {
    assert (forall l :: l !in s) ==> s == {};
  }

  /** The peak loop of `_struct_builder`: one entry per label, found by `FindPeak`. */
  method Peaks(data: Grid<Value>, clumps: map<int, seq<Coord>>) returns (peaks: map<int, Option<Coord>>)
    requires data.Valid()
    requires forall l, t :: l in clumps && 0 <= t < |clumps[l]| ==> InBox(data.shape, clumps[l][t])
    ensures peaks.Keys == clumps.Keys
    ensures forall l :: l in clumps ==> PeakOf(data, clumps[l], peaks[l])
  {
    peaks := map[];
    var keys := clumps.Keys;
    while keys != {}
      invariant keys <= clumps.Keys
      invariant peaks.Keys == clumps.Keys - keys
      invariant forall l :: l in peaks ==> PeakOf(data, clumps[l], peaks[l])
      decreases keys
    {
      SomeLabel(keys);
      var l :| l in keys;
      var peak := FindPeak(data, clumps[l]);
      peaks := peaks[l := peak];
      keys := keys - {l};
    }
  }

  /**
   * `_struct_builder`: for a rank-2 or rank-3 CAA, the label-to-coordinates
   * dictionary of its cells in row-major order; for any other rank, nothing.
   * Each label's peak is the first coordinate of largest data value.
   */
  method StructBuilder(data: Grid<Value>, caa: Grid<int>)
    returns (clumps: map<int, seq<Coord>>, peaks: map<int, Option<Coord>>)
    requires data.Valid() && caa.Valid() && data.shape == caa.shape
    ensures |caa.shape| == 2 || |caa.shape| == 3 ==> clumps == Group(Raster(caa.shape), caa.cells)
    ensures |caa.shape| != 2 && |caa.shape| != 3 ==> clumps == map[]
    ensures peaks.Keys == clumps.Keys
    ensures forall l :: l in clumps ==> PeakOf(data, clumps[l], peaks[l])
  {
    if |caa.shape| == 2 {
      clumps := GroupRank2(caa);
    } else if |caa.shape| == 3 {
      clumps := GroupRank3(caa);
    } else {
      clumps := map[];
    }
    GroupInBox(caa.shape, caa.cells);
    peaks := Peaks(data, clumps);
  }

  /**
   * What `_struct_builder` returns for a rank-2 or rank-3 CAA: every cell in
   * exactly one list, keyed by its label; one key per label present; the
   * lists together as long as the array; each list in row-major order.
   */
  lemma StructBuilderClumps(caa: Grid<int>)
    requires caa.Valid()
    ensures var m := Group(Raster(caa.shape), caa.cells);
      && m.Keys == (set k | 0 <= k < |caa.cells| :: caa.cells[k])
      && TotalLen(m) == |caa.cells|
      && (forall l :: l in m ==> LexSorted(m[l]))
      && (forall k :: 0 <= k < |caa.cells| ==> caa.cells[k] in m && Raster(caa.shape)[k] in m[caa.cells[k]])
      && (forall k, l :: 0 <= k < |caa.cells| && l in m && Raster(caa.shape)[k] in m[l] ==> l == caa.cells[k])
  {
    var cs := Raster(caa.shape);
    CellsSorted(Full(caa.shape));
    GroupKeys(cs, caa.cells);
    GroupTotal(cs, caa.cells);
    GroupSorted(cs, caa.cells);
    GroupPartition(cs, caa.cells);
  }

  lemma RasterTwoByTwo()
    ensures Raster([2, 2]) == [[0, 0], [0, 1], [1, 0], [1, 1]]
  {
    var cs := Raster([2, 2]);
    forall k | 0 <= k < 4
      ensures cs[k] == [k / 2, k % 2]
    {
      var c := [k / 2, k % 2];
      CellsRavel([2, 2], c);
      assert [2, 2][1..] == [2] && c[1..] == [k % 2];
      assert [2, 2][1..][1..] == [] && c[1..][1..] == [];
      assert Ravel([2, 2], c) == k;
    }
  }

  /** The first row of the 2×2 example: both cells go to label 1. */
  lemma GroupFirstRow(cs: seq<Coord>, ls: seq<int>)
    requires cs == [[0, 0], [0, 1], [1, 0], [1, 1]] && ls == [1, 1, 2, 2]
    ensures Group(cs[..2], ls[..2]) == map[1 := [[0, 0], [0, 1]]]
  {
    assert cs[..0] == [] && ls[..0] == [];
    GroupStep(cs, ls, 0);
    assert Group(cs[..1], ls[..1]) == map[1 := [[0, 0]]];
    GroupStep(cs, ls, 1);
    assert [[0, 0]] + [cs[1]] == [[0, 0], [0, 1]];
  }

  lemma GroupTwoByTwo()
    ensures Group([[0, 0], [0, 1], [1, 0], [1, 1]], [1, 1, 2, 2]) == map[1 := [[0, 0], [0, 1]], 2 := [[1, 0], [1, 1]]]
  {
    var cs: seq<Coord> := [[0, 0], [0, 1], [1, 0], [1, 1]];
    var ls := [1, 1, 2, 2];
    GroupFirstRow(cs, ls);
    GroupStep(cs, ls, 2);
    assert Group(cs[..3], ls[..3]) == map[1 := [[0, 0], [0, 1]], 2 := [[1, 0]]];
    GroupStep(cs, ls, 3);
    assert [[1, 0]] + [cs[3]] == [[1, 0], [1, 1]];
    assert cs[..4] == cs && ls[..4] == ls;
  }

  /**
   * Labels [[1, 1], [2, 2]] over data [[1, 3], [5, 2]]: clump 1 is (0, 0), (0, 1)
   * with its peak at (0, 1); clump 2 is (1, 0), (1, 1) with its peak at (1, 0).
   */
  lemma StructBuilderExample()
    ensures Group(Raster([2, 2]), [1, 1, 2, 2]) == map[1 := [[0, 0], [0, 1]], 2 := [[1, 0], [1, 1]]]
    ensures PeakOf(Grid([2, 2], [Fin(1), Fin(3), Fin(5), Fin(2)]), [[0, 0], [0, 1]], Some([0, 1]))
    ensures PeakOf(Grid([2, 2], [Fin(1), Fin(3), Fin(5), Fin(2)]), [[1, 0], [1, 1]], Some([1, 0]))
  {
    RasterTwoByTwo();
    GroupTwoByTwo();
    ExamplePeak(0, 1);
    ExamplePeak(1, 0);
  }

  /**
   * In row `i` of the 2x2 example grid the peak is column `j`: 3 after 1 in
   * the first row, 5 before 2 in the second.
   */
  lemma ExamplePeak(i: int, j: int)
    requires (i, j) == (0, 1) || (i, j) == (1, 0)
    ensures PeakOf(Grid([2, 2], [Fin(1), Fin(3), Fin(5), Fin(2)]), [[i, 0], [i, 1]], Some([i, j]))
  {
    var data := Grid([2, 2], [Fin(1), Fin(3), Fin(5), Fin(2)]);
    var pl: seq<Coord> := [[i, 0], [i, 1]];
    ProdRank2([2, 2]);
    Ravel2([2, 2], i, 0);
    Ravel2([2, 2], i, 1);
    var vs := Values(data, pl);
    assert vs == [data.cells[2 * i], data.cells[2 * i + 1]];
    assert IsPeak(vs, j);
    assert !NoPeak(vs) by { assert Gt(vs[j], NegInf); }
    assert pl[j] == [i, j];
  }

  // ---------------------------------------------------------------------------
  // _fellwalker: squeeze, clump, remap
  // ---------------------------------------------------------------------------

  /** `g[0, ...]` on an array whose first axis has length 1: the same cells, one axis fewer. */
  function DropFirst<T>(g: Grid<T>): (r: Grid<T>)
    requires |g.shape| > 0 && g.shape[0] == 1
    ensures |r.shape| == |g.shape| - 1 && r.cells == g.cells
    ensures g.Valid() ==> r.Valid()
  {
    Grid(g.shape[1..], g.cells)
  }

  /**
   * The axis squeeze of `_fellwalker` as written. On a rank-4 array both
   * `data[0,:,:,:]` and `data[0,:,:]` drop only the first axis, so the inner
   * `shape[1] == 1` branch changes nothing.
   */
  function SqueezeAsWritten<T>(g: Grid<T>): (r: Grid<T>)
    ensures r.cells == g.cells
    ensures |g.shape| == 4 && g.shape[0] == 1 ==> |r.shape| == 3 && r.shape == g.shape[1..]
    ensures |g.shape| == 3 && g.shape[0] == 1 ==> |r.shape| == 2 && r.shape == g.shape[1..]
    ensures !((|g.shape| == 3 || |g.shape| == 4) && g.shape[0] == 1) ==> r == g
  {
    if |g.shape| == 4 then
      if g.shape[0] == 1 then
        if g.shape[1] == 1 then DropFirst(g) else DropFirst(g)
      else g
    else if |g.shape| == 3 then
      if g.shape[0] == 1 then DropFirst(g) else g
    else g
  }

  /** A (1, 1, 5, 5) cube reaches the clumper as a 3-D (1, 5, 5) cube. */
  lemma SqueezeAsWrittenKeepsSingleton(cells: seq<int>)
    ensures SqueezeAsWritten(Grid([1, 1, 5, 5], cells)).shape == [1, 5, 5]
    ensures Squeeze(Grid([1, 1, 5, 5], cells)).shape == [5, 5]
  {
    assert [1, 1, 5, 5][1..] == [1, 5, 5];
    assert [1, 5, 5][1..] == [5, 5];
  }

  /**
   * The axis squeeze as the branches intend: leading singleton axes are
   * dropped, both of them for a rank-4 array of shape (1, 1, ...).
   */
  function Squeeze<T>(g: Grid<T>): (r: Grid<T>)
    ensures r.cells == g.cells && (g.Valid() ==> r.Valid())
    ensures |g.shape| == 4 && g.shape[0] == 1 ==>
      (g.shape[1] == 1 ==> r.shape == g.shape[2..]) && (g.shape[1] != 1 ==> r.shape == g.shape[1..])
    ensures |g.shape| == 3 && g.shape[0] == 1 ==> r.shape == g.shape[1..]
    ensures !((|g.shape| == 3 || |g.shape| == 4) && g.shape[0] == 1) ==> r == g
    ensures |r.shape| <= 3 || r.shape == g.shape
  {
    if |g.shape| == 4 then
      if g.shape[0] == 1 then
        if g.shape[1] == 1 then DropFirst(DropFirst(g)) else DropFirst(g)
      else g
    else if |g.shape| == 3 then
      if g.shape[0] == 1 then DropFirst(g) else g
    else g
  }

  /** The smallest of a non-empty sequence of labels (numpy's `min`). */
  function MinOf(s: seq<int>): (m: int)
    requires |s| > 0
    ensures m in s && forall i :: 0 <= i < |s| ==> m <= s[i]
  {
    if |s| == 1 then s[0] else Min(s[0], MinOf(s[1..]))
  }

  /** `ret[ret == ret.min()] = 0` on the cells of `ret`. */
  function Remapped(s: seq<int>): (r: seq<int>)
    requires |s| > 0
    ensures |r| == |s|
  {
    seq(|s|, i requires 0 <= i < |s| => if s[i] == MinOf(s) then 0 else s[i])
  }

  /**
   * After the remap no cell holds the old minimum unless it was 0, cells that
   * held it hold 0, and every other cell keeps its label.
   */
  lemma RemappedCells(s: seq<int>)
    requires |s| > 0
    ensures forall i :: 0 <= i < |s| ==> (Remapped(s)[i] == 0 <==> s[i] == 0 || s[i] == MinOf(s))
    ensures forall i :: 0 <= i < |s| && s[i] != MinOf(s) ==> Remapped(s)[i] == s[i]
    ensures MinOf(s) != 0 ==> MinOf(s) !in Remapped(s)
  {
  }

  /**
   * When every label above the minimum is non-negative (a background below
   * the clump labels), the remapped array is non-negative with minimum 0, and
   * remapping it again changes nothing.
   */
  lemma RemappedIdempotent(s: seq<int>)
    requires |s| > 0 && forall i :: 0 <= i < |s| && s[i] != MinOf(s) ==> s[i] >= 0
    ensures forall i :: 0 <= i < |s| ==> Remapped(s)[i] >= 0
    ensures MinOf(Remapped(s)) == 0
    ensures Remapped(Remapped(s)) == Remapped(s)
  {
    var r := Remapped(s);
    var k :| 0 <= k < |s| && s[k] == MinOf(s);
    assert r[k] == 0;
  }

  /** The in-place remap of the clumper's output: cells equal to the minimum become 0. */
  method RemapMinToZero(ret: array<int>)
    requires ret.Length > 0
    modifies ret
    ensures ret[..] == Remapped(old(ret[..]))
  {
    ghost var s := ret[..];
    var m := ret[0];
    for i := 1 to ret.Length
      invariant m in s[..i] && forall j :: 0 <= j < i ==> m <= s[j]
    {
      if ret[i] < m {
        m := ret[i];
      }
    }
    assert s[..ret.Length] == s;
    assert m == MinOf(s);
    for i := 0 to ret.Length
      invariant forall j :: 0 <= j < i ==> ret[j] == Remapped(s)[j]
      invariant forall j :: i <= j < ret.Length ==> ret[j] == s[j]
    {
      if ret[i] == m {
        ret[i] := 0;
      }
    }
  }

  /**
   * `_fellwalker`: squeeze the cube, run the external clumper on it and remap
   * the minimum label of its output to 0; a `None` from the clumper is
   * passed on.
   */
  method FellwalkerCaa<C>(data: Grid<Value>, config: C, rms: real, clumper: (Grid<Value>, real, C) -> Option<seq<int>>)
    returns (caa: Option<array<int>>)
    requires clumper(Squeeze(data), rms, config).Some? ==> |clumper(Squeeze(data), rms, config).value| > 0
    ensures caa.None? <==> clumper(Squeeze(data), rms, config).None?
    ensures caa.Some? ==> fresh(caa.value) && caa.value[..] == Remapped(clumper(Squeeze(data), rms, config).value)
  {
    var cube := Squeeze(data);
    var ret := clumper(cube, rms, config);
    if ret.Some? {
      var a := new int[|ret.value|](i requires 0 <= i < |ret.value| => ret.value[i]);
      assert a[..] == ret.value;
      RemapMinToZero(a);
      caa := Some(a);
    } else {
      caa := None;
    }
  }
}

=== FILE: indexing.dfy ===
/**
 * Result assembly of acalib's Indexing algorithm (`algorithms/indexing.py`):
 * filling configuration defaults, then running the per-slice loop that
 * stacks, segments and measures each velocity slice and accumulates the
 * non-empty results into a container. The numerical work (spectra sketch,
 * velocity stacking, GMS segmentation, shape measurement and the WCS
 * transforms) is passed in as opaque functions.
 */
module Indexing {
  import opened Wrappers
  import opened Axes

  /** A configuration value: a float, an int or Python's `None`. */
  datatype Param = Real(r: real) | Int(i: int) | Null

  /** The defaults `default_params` fills in. */
  const Defaults: map<string, Param> :=
    map["P" := Real(0.05), "PRECISION" := Real(0.02), "RANDOM_STATE" := Null, "SAMPLES" := Int(1000)]

  /**
   * The input cube: an `NDData` or `NDDataRef` carries its data array and an
   * optional (possibly falsy) WCS; anything else is used as the data itself.
   */
  datatype Cube<A, W> = Plain(data: A) | NDData(data: A, wcs: Option<W>) | NDDataRef(data: A, wcs: Option<W>)

  /** An entry of the container's image list. */
  datatype Image<A, W> =
    | Input(cube: Cube<A, W>)                  // the input cube itself
    | Array(a: A)                              // a stacked slice or a segmentation image
    | Ref(inner: Image<A, W>, wcs: W)          // `NDDataRef(data=im, wcs=wcs)`

  /**
   * The library calls `run` makes:
   *   sketch     `spectra_sketch(data, SAMPLES, RANDOM_STATE)`, its slices,
   *   stack      `vel_stacking(cube, slice)`,
   *   segment    `GMS(params).run(pp_slice)`,
   *   pixToFreq  `float(wcs.all_pix2world(0, 0, z, 1)[2])`,
   *   measure    `measure_shape(pp_slice, labeled_images, freq_min, freq_max)`, its rows,
   *   dropAxis   `wcs.dropaxis(2)`.
   */
  datatype Externals<!A, !W, R> = Externals(
    sketch: (A, Param, Param) -> seq<Range>,
    stack: (Cube<A, W>, Range) -> A,
    segment: (map<string, Param>, A) -> seq<A>,
    pixToFreq: (W, int) -> real,
    measure: (A, seq<A>, Option<real>, Option<real>) -> seq<R>,
    dropAxis: W -> W)

  // ---------------------------------------------------------------------------
  // default_params
  // ---------------------------------------------------------------------------

  /** The configuration after `default_params`: every default key present, given keys untouched. */
  function WithDefaults(config: map<string, Param>): (r: map<string, Param>)
    ensures r.Keys == config.Keys + Defaults.Keys
    ensures forall k :: k in config ==> r[k] == config[k]
    ensures forall k :: k in Defaults && k !in config ==> r[k] == Defaults[k]
  {
    Merged(config, Defaults)
  }

  /** `config` with every key of `d` it lacks taken from `d`. */
  function Merged(config: map<string, Param>, d: map<string, Param>): (r: map<string, Param>)
    ensures r.Keys == config.Keys + d.Keys
  {
    map k | k in config.Keys + d.Keys :: if k in config then config[k] else d[k]
  }

  /** Filling the defaults twice is filling them once. */
  lemma WithDefaultsIdempotent(config: map<string, Param>)
    ensures WithDefaults(WithDefaults(config)) == WithDefaults(config)
  {
  }

  /** An empty configuration becomes exactly the defaults. */
  lemma WithDefaultsEmpty()
    ensures WithDefaults(map[]) == Defaults
  {
  }

  /** One `if key not in config` assignment of `default_params`. */
  function Fill(config: map<string, Param>, k: string, v: Param): (r: map<string, Param>)
    ensures r.Keys == config.Keys + {k}
    ensures k !in config ==> r[k] == v
    ensures forall j :: j in config ==> r[j] == config[j]
  {
    if k in config then config else config[k := v]
  }

  /** Filling one key after the others is filling with one more default. */
  lemma FillLater(config: map<string, Param>, d: map<string, Param>, k: string, v: Param)
    requires k !in d
    ensures Merged(config, d[k := v]) == Fill(Merged(config, d), k, v)
  {
    var l := Merged(config, d[k := v]);
    var r := Fill(Merged(config, d), k, v);
    assert l.Keys == r.Keys;
  }

  /** The four assignments of `default_params`, one after the other, fill exactly the defaults. */
  lemma WithDefaultsStepwise(config: map<string, Param>)
    ensures WithDefaults(config)
         == Fill(Fill(Fill(Fill(config, "P", Real(0.05)), "PRECISION", Real(0.02)), "RANDOM_STATE", Null), "SAMPLES", Int(1000))
  {
    var d0: map<string, Param> := map[];
    var d1 := d0["P" := Real(0.05)];
    var d2 := d1["PRECISION" := Real(0.02)];
    var d3 := d2["RANDOM_STATE" := Null];
    assert Merged(config, d0) == config;
    FillLater(config, d0, "P", Real(0.05));
    FillLater(config, d1, "PRECISION", Real(0.02));
    FillLater(config, d2, "RANDOM_STATE", Null);
    FillLater(config, d3, "SAMPLES", Int(1000));
  }

  // ---------------------------------------------------------------------------
  // The per-slice step and the accumulated result
  // ---------------------------------------------------------------------------

  /** What one slice yields: its stacked image, its segmentation images and its table rows. */
  datatype Step<A, R> = Step(pp: A, labeled: seq<A>, table: seq<R>)

  /** The WCS `run` uses: only an `NDData`/`NDDataRef` with a truthy WCS has one. */
  function WcsOf<A, W>(cube: Cube<A, W>): (w: Option<W>)
    ensures w.Some? ==> !cube.Plain? && cube.wcs == w
    ensures cube.Plain? || cube.wcs.None? ==> w.None?
  {
    match cube
    case Plain(_) => None
    case NDData(_, w) => w
    case NDDataRef(_, w) => w
  }

  /** The parameters handed to GMS. */
  function GmsParams(config: map<string, Param>): map<string, Param>
    requires "P" in config && "PRECISION" in config
  {
    map["P" := config["P"], "PRECISION" := config["PRECISION"]]
  }

  /** The frequency bounds of a slice: from the WCS when there is one, else both `None`. */
  function FreqBounds<A, W, R>(ext: Externals<A, W, R>, wcs: Option<W>, s: Range): (b: (Option<real>, Option<real>))
    ensures wcs.None? ==> b == (None, None)
    ensures wcs.Some? ==> b.0.Some? && b.1.Some?
  {
    if wcs.Some? then (Some(ext.pixToFreq(wcs.value, s.start)), Some(ext.pixToFreq(wcs.value, s.stop)))
    else (None, None)
  }

  function StepOf<A, W, R>(ext: Externals<A, W, R>, cube: Cube<A, W>, params: map<string, Param>, wcs: Option<W>, s: Range): Step<A, R>
  {
    var pp := ext.stack(cube, s);
    var labeled := ext.segment(params, pp);
    var b := FreqBounds(ext, wcs, s);
    Step(pp, labeled, ext.measure(pp, labeled, b.0, b.1))
  }

  /** What every slice yields, in slice order. */
  function Steps<A, W, R>(ext: Externals<A, W, R>, cube: Cube<A, W>, params: map<string, Param>, wcs: Option<W>, slices: seq<Range>): (steps: seq<Step<A, R>>)
    ensures |steps| == |slices|
  {
    seq(|slices|, i requires 0 <= i < |slices| => StepOf(ext, cube, params, wcs, slices[i]))
  }

  /** Step `i` is slice `i` stacked, segmented and measured. */
  lemma StepsAt<A, W, R>(ext: Externals<A, W, R>, cube: Cube<A, W>, params: map<string, Param>, wcs: Option<W>, slices: seq<Range>, i: nat)
    requires i < |slices|
    ensures Steps(ext, cube, params, wcs, slices)[i] == StepOf(ext, cube, params, wcs, slices[i])
  {
  }

  /** The slices whose table is non-empty, in slice order. */
  function Kept<A, R>(steps: seq<Step<A, R>>): (ks: seq<Step<A, R>>)
    ensures |ks| <= |steps|
  {
    if |steps| == 0 then []
    else (if |steps[0].table| > 0 then [steps[0]] else []) + Kept(steps[1..])
  }

  /** The image layout of kept slices: each stacked image followed by its segmentation images. */
  function Layout<A, R>(ks: seq<Step<A, R>>): seq<A>
  {
    if |ks| == 0 then [] else [ks[0].pp] + ks[0].labeled + Layout(ks[1..])
  }

  /** Number of images the kept slices contribute: one plus the segmentation images each. */
  function ImageCount<A, R>(ks: seq<Step<A, R>>): nat
  {
    if |ks| == 0 then 0 else 1 + |ks[0].labeled| + ImageCount(ks[1..])
  }

  function TablesOf<A, R>(ks: seq<Step<A, R>>): (ts: seq<seq<R>>)
    ensures |ts| == |ks| && forall i :: 0 <= i < |ks| ==> ts[i] == ks[i].table
  {
    seq(|ks|, i requires 0 <= i < |ks| => ks[i].table)
  }

  function Arrays<A, W>(xs: seq<A>): (ims: seq<Image<A, W>>)
    ensures |ims| == |xs|
  {
    seq(|xs|, i requires 0 <= i < |xs| => Array(xs[i]))
  }

  function Rewrap<A, W>(ims: seq<Image<A, W>>, w: W): (r: seq<Image<A, W>>)
    ensures |r| == |ims| && forall i :: 0 <= i < |ims| ==> r[i] == Ref(ims[i], w)
  {
    seq(|ims|, i requires 0 <= i < |ims| => Ref(ims[i], w))
  }

  /**
   * The final image list: the input cube, then the layout of the kept
   * slices, each image wrapped with the reduced WCS when there is a WCS.
   */
  function Assembled<A, W, R>(ext: Externals<A, W, R>, cube: Cube<A, W>, wcs: Option<W>, ks: seq<Step<A, R>>): seq<Image<A, W>>
  {
    [Input(cube)] + if wcs.Some? then Rewrap(Arrays(Layout(ks)), ext.dropAxis(wcs.value)) else Arrays(Layout(ks))
  }

  lemma ArraysAppend<A, W>(xs: seq<A>, ys: seq<A>)
    ensures Arrays<A, W>(xs + ys) == Arrays<A, W>(xs) + Arrays<A, W>(ys)
  {
  }

  lemma {:induction false} KeptSnoc<A, R>(steps: seq<Step<A, R>>, s: Step<A, R>)
    ensures |s.table| > 0 ==> Kept(steps + [s]) == Kept(steps) + [s]
    ensures |s.table| == 0 ==> Kept(steps + [s]) == Kept(steps)
    decreases |steps|
  {
    if |steps| == 0 {
      assert steps + [s] == [s];
    } else {
      assert (steps + [s])[1..] == steps[1..] + [s];
      KeptSnoc(steps[1..], s);
    }
  }

  lemma {:induction false} LayoutAppend<A, R>(xs: seq<Step<A, R>>, ys: seq<Step<A, R>>)
    ensures Layout(xs + ys) == Layout(xs) + Layout(ys)
    decreases |xs|
  {
    if |xs| == 0 {
      assert xs + ys == ys;
    } else {
      assert (xs + ys)[1..] == xs[1..] + ys;
      LayoutAppend(xs[1..], ys);
    }
  }

  /** A slice is kept exactly when its table is non-empty. */
  lemma {:induction false} KeptMembers<A, R>(steps: seq<Step<A, R>>)
    ensures forall s :: s in Kept(steps) <==> s in steps && |s.table| > 0
    decreases |steps|
  {
    if |steps| > 0 {
      KeptMembers(steps[1..]);
      assert steps == [steps[0]] + steps[1..];
    }
  }

  /** The layout holds one stacked image plus the segmentation images of each kept slice. */
  lemma {:induction false} LayoutLength<A, R>(ks: seq<Step<A, R>>)
    ensures |Layout(ks)| == ImageCount(ks)
    decreases |ks|
  {
    if |ks| > 0 {
      LayoutLength(ks[1..]);
    }
  }

  /** When no slice yields a row, nothing is kept and the images are the cube alone. */
  lemma {:induction false} AllEmpty<A, W, R>(ext: Externals<A, W, R>, cube: Cube<A, W>, wcs: Option<W>, steps: seq<Step<A, R>>)
    requires forall i :: 0 <= i < |steps| ==> |steps[i].table| == 0
    ensures Kept(steps) == [] && TablesOf(Kept(steps)) == []
    ensures Assembled(ext, cube, wcs, Kept(steps)) == [Input(cube)]
    decreases |steps|
  {
    if |steps| > 0 {
      AllEmpty(ext, cube, wcs, steps[1..]);
    }
  }

  /**
   * The final list has the cube first and one more image per kept slice than
   * it has segmentation images: 1 + the sum of (1 + |labeled_images|).
   */
  lemma AssembledLength<A, W, R>(ext: Externals<A, W, R>, cube: Cube<A, W>, wcs: Option<W>, ks: seq<Step<A, R>>)
    ensures |Assembled(ext, cube, wcs, ks)| == 1 + ImageCount(ks)
  {
    LayoutLength(ks);
  }

  /**
   * Entry 0 is the input cube, never rewrapped; entry i + 1 is layout image i,
   * wrapped with the reduced WCS exactly when there is a WCS.
   */
  lemma AssembledEntries<A, W, R>(ext: Externals<A, W, R>, cube: Cube<A, W>, wcs: Option<W>, ks: seq<Step<A, R>>)
    ensures |Assembled(ext, cube, wcs, ks)| == 1 + |Layout(ks)|
    ensures Assembled(ext, cube, wcs, ks)[0] == Input(cube)
    ensures wcs.None? ==> forall i :: 0 <= i < |Layout(ks)| ==> Assembled(ext, cube, wcs, ks)[i + 1] == Array(Layout(ks)[i])
    ensures wcs.Some? ==> forall i :: 0 <= i < |Layout(ks)| ==>
      Assembled(ext, cube, wcs, ks)[i + 1] == Ref(Array(Layout(ks)[i]), ext.dropAxis(wcs.value))
  {
    var xs := Layout(ks);
    if wcs.Some? {
      ConsEntries<A, W>(Input(cube), Rewrap(Arrays(xs), ext.dropAxis(wcs.value)));
      ArraysAt<A, W>(xs);
    } else {
      ConsEntries<A, W>(Input(cube), Arrays(xs));
      ArraysAt<A, W>(xs);
    }
  }

  lemma ArraysAt<A, W>(xs: seq<A>)
    ensures forall i :: 0 <= i < |xs| ==> Arrays<A, W>(xs)[i] == Array(xs[i])
  {
  }

  lemma ConsEntries<A, W>(head: Image<A, W>, ims: seq<Image<A, W>>)
    ensures |[head] + ims| == 1 + |ims| && ([head] + ims)[0] == head
    ensures forall i :: 0 <= i < |ims| ==> ([head] + ims)[i + 1] == ims[i]
  {
  }

  /** The container `run` returns. */
  class Container<A, W, R> {
    var images: seq<Image<A, W>>
    var tables: seq<seq<R>>
    var primary: Option<Image<A, W>>

    constructor ()
      ensures images == [] && tables == [] && primary == None
    {
      images := [];
      tables := [];
      primary := None;
    }
  }

  /** One pass of the slice loop body: stack, segment, then measure with the slice's frequency bounds. */
  method SliceStep<A, W, R>(cube: Cube<A, W>, ext: Externals<A, W, R>, params: map<string, Param>,
                            wcs: Option<W>, slice: Range)
    returns (ppSlice: A, labeledImages: seq<A>, table: seq<R>)
    ensures Step(ppSlice, labeledImages, table) == StepOf(ext, cube, params, wcs, slice)
  {
    ppSlice := ext.stack(cube, slice);
    labeledImages := ext.segment(params, ppSlice);
    var freqMin: Option<real>, freqMax: Option<real>;
    if wcs.Some? {
      freqMin := Some(ext.pixToFreq(wcs.value, slice.start));
      freqMax := Some(ext.pixToFreq(wcs.value, slice.stop));
    } else {
      freqMin := None;
      freqMax := None;
    }
    table := ext.measure(ppSlice, labeledImages, freqMin, freqMax);
  }

  /** Appending a kept slice appends its table, its stacked image and its segmentation images. */
  lemma KeptAppend<A, W, R>(steps: seq<Step<A, R>>, s: Step<A, R>)
    requires |s.table| > 0
    ensures TablesOf(Kept(steps + [s])) == TablesOf(Kept(steps)) + [s.table]
    ensures Arrays<A, W>(Layout(Kept(steps + [s]))) == Arrays<A, W>(Layout(Kept(steps))) + [Array(s.pp)] + Arrays<A, W>(s.labeled)
  {
    KeptSnoc(steps, s);
    ghost var prev := Layout(Kept(steps));
    LayoutAppend(Kept(steps), [s]);
    assert Layout([s]) == [s.pp] + s.labeled;
    ArraysAppend<A, W>(prev, [s.pp] + s.labeled);
    ArraysAppend<A, W>([s.pp], s.labeled);
    assert Arrays<A, W>([s.pp]) == [Array(s.pp)];
  }

  /** What slice `i` adds to the tables and images accumulated over the slices before it. */
  lemma AccumulateStep<A, W, R>(steps: seq<Step<A, R>>, i: nat)
    requires i < |steps|
    ensures |steps[i].table| > 0 ==> TablesOf(Kept(steps[..i + 1])) == TablesOf(Kept(steps[..i])) + [steps[i].table]
    ensures |steps[i].table| > 0 ==>
      Arrays<A, W>(Layout(Kept(steps[..i + 1]))) == Arrays<A, W>(Layout(Kept(steps[..i]))) + [Array(steps[i].pp)] + Arrays<A, W>(steps[i].labeled)
    ensures |steps[i].table| == 0 ==> Kept(steps[..i + 1]) == Kept(steps[..i])
  {
    assert steps[..i + 1] == steps[..i] + [steps[i]];
    KeptSnoc(steps[..i], steps[i]);
    if |steps[i].table| > 0 {
      KeptAppend<A, W, R>(steps[..i], steps[i]);
    }
  }

  /**
   * The slice loop of `run`: each slice is stacked, segmented and measured;
   * a slice with a non-empty table appends the table, then its stacked image
   * and its segmentation images.
   */
  method Accumulate<A, W, R>(c: Container<A, W, R>, cube: Cube<A, W>, ext: Externals<A, W, R>,
                             params: map<string, Param>, wcs: Option<W>, slices: seq<Range>)
    requires c.tables == [] && c.images == []
    modifies c
    ensures c.tables == TablesOf(Kept(Steps(ext, cube, params, wcs, slices)))
    ensures c.images == Arrays(Layout(Kept(Steps(ext, cube, params, wcs, slices))))
    ensures c.primary == old(c.primary)
  {
    ghost var steps := Steps(ext, cube, params, wcs, slices);
    for i := 0 to |slices|
      invariant c.tables == TablesOf(Kept(steps[..i]))
      invariant c.images == Arrays(Layout(Kept(steps[..i])))
      invariant c.primary == old(c.primary)
    {
      var ppSlice, labeledImages, table := SliceStep(cube, ext, params, wcs, slices[i]);
      StepsAt(ext, cube, params, wcs, slices, i);
      assert steps[i] == Step(ppSlice, labeledImages, table);
      AccumulateStep<A, W, R>(steps, i);
      if |table| > 0 {
        Append(c, table, ppSlice, labeledImages);
      }
    }
    assert steps[..|slices|] == steps;
  }

  /** A kept slice: its table is appended, then its stacked image, then its segmentation images. */
  method Append<A, W, R>(c: Container<A, W, R>, table: seq<R>, ppSlice: A, labeledImages: seq<A>)
    modifies c
    ensures c.tables == old(c.tables) + [table]
    ensures c.images == old(c.images) + [Array(ppSlice)] + Arrays(labeledImages)
    ensures c.primary == old(c.primary)
  {
    c.tables := c.tables + [table];
    c.images := c.images + [Array(ppSlice)];
    c.images := c.images + Arrays(labeledImages);
  }

  /** `c.images[i] = NDDataRef(data=im, wcs=wcs)` for every accumulated image. */
  method RewrapImages<A, W, R>(c: Container<A, W, R>, w: W)
    modifies c
    ensures c.images == Rewrap(old(c.images), w)
    ensures c.tables == old(c.tables) && c.primary == old(c.primary)
  {
    ghost var before := c.images;
    for i := 0 to |c.images|
      invariant c.tables == old(c.tables) && c.primary == old(c.primary)
      invariant |c.images| == |before|
      invariant forall j :: 0 <= j < i ==> c.images[j] == Ref(before[j], w)
      invariant forall j :: i <= j < |before| ==> c.images[j] == before[j]
    {
      c.images := c.images[i := Ref(c.images[i], w)];
    }
  }

  /** The keys `run` reads from the configuration. */
  const Required: set<string> := Defaults.Keys

  /** After `default_params` every key `run` reads is present, whatever the configuration held. */
  lemma DefaultsSuffice(config: map<string, Param>)
    ensures Required <= WithDefaults(config).Keys
    ensures "P" in WithDefaults(config) && "PRECISION" in WithDefaults(config)
    ensures "SAMPLES" in WithDefaults(config) && "RANDOM_STATE" in WithDefaults(config)
  {
  }

  /** The algorithm object; its configuration is set up by a base class that is not part of this model. */
  class Indexing {
    var config: map<string, Param>

    /** The algorithm keeps the caller's `params` as its configuration. */
    constructor (params: map<string, Param>)
      ensures config == params
    {
      config := params;
    }

    /** `default_params`: add each missing default key. */
    method DefaultParams()
      modifies this
      ensures config == WithDefaults(old(config))
    {
      WithDefaultsStepwise(config);
      config := Fill(config, "P", Real(0.05));
      config := Fill(config, "PRECISION", Real(0.02));
      config := Fill(config, "RANDOM_STATE", Null);
      config := Fill(config, "SAMPLES", Int(1000));
    }

    /**
     * `run`: the tables of the slices with a non-empty table, in slice order;
     * the images laid out by `Assembled`; `primary` is the first image, the
     * input cube. `None` is the `KeyError` of a configuration lacking one of
     * the keys `run` reads.
     */
    method Run<A, W, R>(cube: Cube<A, W>, ext: Externals<A, W, R>) returns (r: Option<Container<A, W, R>>)
      ensures r.None? <==> !(Required <= config.Keys)
      ensures r.Some? ==> fresh(r.value)
      ensures r.Some? ==>
        var c := r.value;
        var slices := ext.sketch(cube.data, config["SAMPLES"], config["RANDOM_STATE"]);
        var steps := Steps(ext, cube, GmsParams(config), WcsOf(cube), slices);
        && c.tables == TablesOf(Kept(steps))
        && c.images == Assembled(ext, cube, WcsOf(cube), Kept(steps))
      ensures r.Some? ==> r.value.primary == Some(Input(cube)) && r.value.images[0] == Input(cube)
    {
      var wcs: Option<W>;
      var data: A;
      if cube.NDData? || cube.NDDataRef? {
        if cube.wcs.Some? {
          wcs := cube.wcs;
        } else {
          wcs := None;
        }
        data := cube.data;
      } else {
        data := cube.data;
        wcs := None;
      }
      assert wcs == WcsOf(cube);

      var c := new Container();
      if !(Required <= config.Keys) {
        return None;
      }
      var params := map["P" := config["P"], "PRECISION" := config["PRECISION"]];
      var slices := ext.sketch(data, config["SAMPLES"], config["RANDOM_STATE"]);
      Accumulate(c, cube, ext, params, wcs, slices);
      if wcs.Some? {
        var w := ext.dropAxis(wcs.value);
        RewrapImages(c, w);
      }
      c.images := [Input(cube)] + c.images;
      c.primary := Some(c.images[0]);
      r := Some(c);
    }
  }
}

=== FILE: wrappers.dfy ===
/** Python's `None`-or-value, used for optional arguments and for results that may be missing. */
module Wrappers {

  datatype Option<+T> = None | Some(value: T)
}
